=== FILE: README.md ===
# SX127x LoRa driver — a Dafny model

This project models the MicroPython/CPython driver for the Semtech SX127x LoRa
transceiver (`src/sx127x/sx127x.py`). It also models the device-EUI derivation
`Configuration.mac2eui` (`src/sx127x/config.py`).

The driver talks to the chip only through register reads and writes over SPI.
The model has three layers:

- **The chip** (`Device`). It is a file of 128 one-byte registers plus the
  256-byte packet FIFO. A read or write of `REG_FIFO` touches the FIFO byte
  under `REG_FIFO_ADDR_PTR` and advances that pointer, wrapping at 256.
  Writes to `REG_IRQ_FLAGS` clear the bits that are set in the value written.
  When a transmission ends, the chip raises TX_DONE and returns to standby.
- **The driver object** (`Driver.Radio`). It holds the chip plus the driver's
  cached implicit-header mode, its cached frequency, and whether a receive
  callback is registered.
  - Every operation maps a `Radio` to the next `Radio`.
  - It also returns the ordered list of register transfers it issued and its
    return value.
  - Operations that can raise return `Outcome`, which records the state and
    trace reached when the exception happens.
- **The operations.**
  - Setting up the modem: `Modem`, `Setup`.
  - Transmitting: `Transmit`.
  - Receiving: `Receive`.
  - Treating the FIFO as a ring of 256 bytes, which gives the read-back
    guarantee: `Ring`.
  - The bus frame of one transfer: `Registers`.
  - MAC-to-EUI conversion: `Eui`.

All files are verified together: `dafny verify *.dfy`.

## Model

| member | source | states |
|---|---|---|
| Registers.Clamp | src/sx127x/sx127x.py:209 | the `min(max(x, lo), hi)` idiom: the result lies in `[lo, hi]`; it is `x` when `x` is inside that range, and the nearer bound otherwise |
| Registers.ByteOf | src/sx127x/sx127x.py:296 | an integer in 0..255 becomes the byte with exactly that unsigned value |
| Registers.Frame | src/sx127x/sx127x.py:354-360 | a transfer is two bytes. The address byte's high bit is set exactly for a write, and its low seven bits are the register address. A read sends 0x00 as its second byte; a write sends the value |
| Registers.AddressByte | src/sx127x/sx127x.py:355 | for a 7-bit address, `address & 0x7f` gives the address back, and OR-ing in 0x80 keeps those seven bits and sets bit 7 |
| Registers.FrameRoundTrip | src/sx127x/sx127x.py:354-360 | the chip decodes every frame the driver sends back to the transfer the driver meant |
| Device.Load | src/sx127x/sx127x.py:354-356 | reading an ordinary register returns it and changes nothing. Reading REG_FIFO returns the byte under the pointer and advances the pointer by one (mod 256); nothing else changes |
| Device.Store | src/sx127x/sx127x.py:359-360 | writing REG_FIFO stores the byte under the pointer and advances the pointer. Writing REG_IRQ_FLAGS clears the bits written. Any other write replaces that one register. Nothing else changes |
| Device.TransmitDone | src/sx127x/sx127x.py:154-155 | when transmission ends, the chip sets TX_DONE on top of the other flags and goes to LoRa standby; every other register stays |
| Driver.ReadRegister | src/sx127x/sx127x.py:354-356 | exactly one read transfer. The result is the register's value, or the FIFO byte under the pointer for REG_FIFO; the driver's caches stay |
| Driver.WriteRegister | src/sx127x/sx127x.py:359-360 | exactly one write transfer with the register's write semantics; only the addressed register (or the FIFO and its pointer) changes |
| Driver.SetMode | src/sx127x/sx127x.py:199 | the mode write always sets the LoRa flag and the 3-bit mode field, and touches only REG_OP_MODE |
| Driver.Sleep | src/sx127x/sx127x.py:202-203 | REG_OP_MODE becomes 0x80 in one write; nothing else changes |
| Driver.Standby | src/sx127x/sx127x.py:198-199 | REG_OP_MODE becomes 0x81 in one write; nothing else changes |
| Driver.HeaderConfig | src/sx127x/sx127x.py:279 | bit 0 of the result is set exactly for implicit mode; bits 7-1 are unchanged |
| Driver.ImplicitHeaderMode | src/sx127x/sx127x.py:275-280 | a request equal to the cached mode issues no transfer. Any other request reads and then writes REG_MODEM_CONFIG_1 so that bit 0 equals the request. The cache then holds the request, and a cache in step with the hardware stays in step |
| Driver.HeaderCacheTracksHardware | src/sx127x/sx127x.py:275-280 | once the cache agrees with bit 0 of REG_MODEM_CONFIG_1, every later header-mode call keeps the two in agreement |
| Modem.PaConfig | src/sx127x/sx127x.py:206-215 | RFO: pattern 0x70, with the level clamped to 0..14 in the low nibble. PA_BOOST: 0x80, with the level clamped to 2..17, minus 2, in the low nibble |
| Modem.SetTxPower | src/sx127x/sx127x.py:206-215 | one write to REG_PA_CONFIG, after which the chip's output power in dBm equals the clamped level |
| Modem.SetFrequency | src/sx127x/sx127x.py:218-230 | the cached frequency takes the request first. A frequency not in the table raises with no transfer. A listed one writes MSB, MID and LSB, and the 24-bit word then programs exactly that carrier (Frf·32 MHz/2^19) |
| Modem.FrfTableInjective | src/sx127x/sx127x.py:221-227 | different table frequencies program different register triples |
| Modem.FirstBinFrom | src/sx127x/sx127x.py:243-247 | the search loop returns the first bin at or after the start index that is at least the request, or 9 |
| Modem.BandwidthIndex | src/sx127x/sx127x.py:240-251 | the least bin index whose bandwidth is at least the request; 9 exactly when the request exceeds 250 kHz |
| Modem.BandwidthIndexOfBin | src/sx127x/sx127x.py:241-247 | a listed bandwidth encodes as its own index |
| Modem.BandwidthIndexMonotone | src/sx127x/sx127x.py:241-247 | a larger request never encodes to a smaller index |
| Modem.BandwidthConfig | src/sx127x/sx127x.py:251 | the index goes to bits 7-4; bits 3-0 are kept |
| Modem.SetSignalBandwidth | src/sx127x/sx127x.py:240-251 | a read and then a write of REG_MODEM_CONFIG_1 that leave the bin index in bits 7-4 and bits 3-0 unchanged |
| Modem.SpreadingConfig | src/sx127x/sx127x.py:237 | the spreading factor goes to bits 7-4; bits 3-0 are kept |
| Modem.SetSpreadingFactor | src/sx127x/sx127x.py:233-237 | the factor is clamped to 6..12 and lands in bits 7-4 of REG_MODEM_CONFIG_2. The detection pair is the SF6 pair exactly when the clamped factor is 6. Only the three named registers are written |
| Modem.CodingRateConfig | src/sx127x/sx127x.py:257 | the rate goes to bits 3-1; bits 7-4 and bit 0 are kept |
| Modem.SetCodingRate | src/sx127x/sx127x.py:254-257 | bits 3-1 of REG_MODEM_CONFIG_1 hold the clamped denominator minus 4; every other bit is kept |
| Modem.SetPreambleLength | src/sx127x/sx127x.py:260-262 | the MSB/LSB pair holds the length modulo 2^16, for every integer length |
| Modem.PreambleSplit | src/sx127x/sx127x.py:261-262 | the shifted-and-masked high byte and the masked low byte recombine to the length modulo 2^16 |
| Modem.SetSyncWord | src/sx127x/sx127x.py:271-272 | one write of the sync word to REG_SYNC_WORD |
| Modem.CrcConfig | src/sx127x/sx127x.py:267 | bit 2 is set exactly when CRC is enabled; every other bit is kept |
| Modem.EnableCrc | src/sx127x/sx127x.py:265-268 | bit 2 of REG_MODEM_CONFIG_2 follows the request; every other bit is kept |
| Setup.DefaultConfiguration | src/sx127x/sx127x.py:85-138 | `init` with the constructor's defaults leaves REG_PA_CONFIG 0x80 (PA_BOOST, 2 dBm), bandwidth bin 7 (125 kHz), coding rate 4/5, explicit header, SF8 with detection pair (0xc3, 0x0a), CRC off, REG_MODEM_CONFIG_3 0x04 (no low-data-rate optimisation), preamble 8, sync word 0x12, and standby |
| Setup.LowDataRateTestExact | src/sx127x/sx127x.py:131 | for every non-zero bandwidth and every spreading factor, the integer test holds exactly when `1000 / (bw / 2**sf) > 16` holds over the real numbers; a negative bandwidth never asks for the optimisation |
| Setup.DataRateFault | src/sx127x/sx127x.py:131 | names the exception for the CPython fault set `Setup.DataRateRaises` of a float bandwidth (bandwidth 0, spreading factor 1024 or more, or -1075 or less): OverflowError exactly from spreading factor 1024 on, since `2**sf` is converted before either division, and ZeroDivisionError otherwise |
| Setup.DataRateDefined | src/sx127x/sx127x.py:131 | where the expression does not raise, the bandwidth is non-zero, the exponent lies in -1074..1023, and `Setup.LowDataRateTest` is the expression's value over the reals |
| Setup.LowDataRateExamples | src/sx127x/sx127x.py:131 | the symbol-time test at 125 kHz is off at SF8 and SF10 and on at SF11 and SF12; it is off at 250 kHz SF11 and on at 62.5 kHz SF10 |
| Setup.ConfigureRf | src/sx127x/sx127x.py:112-119 | the bandwidth bin, automatic gain control (0x04) and clamped output power are in place. REG_LNA is its old value with the two boost bits set, so the gain and LF-boost bits 7-2 are kept. Only those registers change |
| Setup.ConfigureShape | src/sx127x/sx127x.py:121-124 | after forgetting the cache, the header bit, spreading factor and coding rate follow the parameters. REG_DETECTION_OPTIMIZE and REG_DETECTION_THRESHOLD hold (0xc5, 0x0c) for a clamped SF6 and (0xc3, 0x0a) otherwise. The bandwidth bits survive |
| Setup.ConfigureFraming | src/sx127x/sx127x.py:125-127 | preamble, sync word and CRC bit follow the parameters, and the spreading-factor bits survive |
| Setup.Configure | src/sx127x/sx127x.py:112-127 | every modulation register holds its parameter at the end, even when a later setter rewrites a shared register. This covers the exact PA_BOOST byte, both detection registers, the preamble, the sync word, and REG_LNA as its old value with the boost bits set (bits 7-2 kept) |
| Setup.ModulatedKept | src/sx127x/sx127x.py:129-138 | the tail of `init` touches none of the modulation registers |
| Setup.LowDataRateOptimize | src/sx127x/sx127x.py:131-132 | bit 3 of REG_MODEM_CONFIG_3 is set only when the test holds; otherwise there is no transfer |
| Setup.Finish | src/sx127x/sx127x.py:134-138 | both FIFO base addresses are 0, and the last write puts the chip in standby |
| Setup.Complete | src/sx127x/sx127x.py:129-138 | the low-data-rate bit follows the symbol-time test, both bases are 0, and the chip is in standby |
| Setup.Tune | src/sx127x/sx127x.py:106-110 | sleep, then the frequency; an unlisted frequency raises after the sleep write |
| Setup.ProgramModem | src/sx127x/sx127x.py:112-138 | the modulation is programmed whether or not line 131 then raises (lines 112-127 run first). The symbol-time expression raises exactly when `Setup.DataRateRaises` holds, with OverflowError exactly from spreading factor 1024 on. Otherwise the low-data-rate bit, both bases and standby follow, and REG_LNA keeps bits 7-2 under its boost bits. The carrier word and the FIFO are untouched |
| Setup.Program | src/sx127x/sx127x.py:106-138 | the symbol-time expression raises OverflowError exactly when the spreading factor is 1024 or more. It raises ZeroDivisionError for a zero bandwidth or a spreading factor of -1075 or less. Success happens exactly for a listed frequency when neither is raised, and leaves the chip fully configured, with REG_LNA bits 7-2 kept |
| Setup.Init | src/sx127x/sx127x.py:96-138 | `init` raises 'Invalid version' exactly when REG_VERSION is not 0x12, after one read and with no write. It raises on an unlisted frequency after the sleep write, and raises at the symbol-time test exactly when that expression raises. Otherwise it leaves the chip configured and in standby with the header cache in step, and REG_LNA is its old value with the boost bits set |
| Ring.Slot | src/sx127x/sx127x.py:172-173 | the FIFO position `i` steps after the pointer lies exactly `i` steps ahead round the ring |
| Ring.AdvanceWraps | src/sx127x/sx127x.py:172-173 | within one turn, `n` FIFO accesses move the pointer `n` slots on, mod 256 |
| Ring.DepositOutside | src/sx127x/sx127x.py:172-173 | a run of FIFO writes leaves every position it does not reach unchanged |
| Ring.DepositAt | src/sx127x/sx127x.py:172-173 | byte `i` of a write run lands `i` slots after the starting pointer |
| Ring.FetchAt | src/sx127x/sx127x.py:348-349 | read `i` of a read run returns the FIFO byte `i` slots after the starting pointer |
| Ring.FifoRoundTrip | src/sx127x/sx127x.py:164-177 | reading back from where a write run of at most 256 bytes began returns exactly the bytes written |
| Transmit.FifoWritesInOrder | src/sx127x/sx127x.py:172-173 | write `i` of the run carries byte `i` of the buffer |
| Transmit.BeginPacket | src/sx127x/sx127x.py:141-147 | standby, the requested header mode, then pointer and payload length both 0: an empty queue with the pointer at its end |
| Transmit.PushFifo | src/sx127x/sx127x.py:172-173 | the loop of `write`: one REG_FIFO write per byte, in order. The FIFO gets the bytes from the pointer on, the pointer moves past them, and no other register changes |
| Transmit.WriteBuffer | src/sx127x/sx127x.py:164-177 | `write` stores and returns min(len(buffer), 255 - length) bytes, taken from the front of the buffer. The length grows by that count; only pointer and length registers change, and the trace is the length read, the FIFO writes and the length write |
| Transmit.QueueGrows | src/sx127x/sx127x.py:164-177 | when the pointer sits at the end of the queue, written bytes are appended to the queue and the pointer stays at its end |
| Transmit.AwaitTxDone | src/sx127x/sx127x.py:154-156 | the poll loop reads REG_IRQ_FLAGS until TX_DONE is seen: once if it was already set, otherwise until the chip finishes sending |
| Transmit.EndPacket | src/sx127x/sx127x.py:150-161 | TX mode, poll, clear TX_DONE. Afterwards TX_DONE is clear, the other flags are as before, and a transmission that ran leaves standby |
| Transmit.Println | src/sx127x/sx127x.py:179-182 | the queued packet that goes on air is the encoded payload cut to 255 bytes |
| Receive.GetIrqFlags | src/sx127x/sx127x.py:184-187 | returns the flags as read and clears every one of them by writing them back |
| Receive.StartReceive | src/sx127x/sx127x.py:294-300 | implicit header exactly for a positive size, whose low byte becomes the payload length. A later `read_payload` therefore takes size mod 256 bytes, or the chip's received count when the size is not positive. Continuous receive comes last, and the FIFO pointer is not touched |
| Receive.ExpectLength | src/sx127x/sx127x.py:317-320 | header mode from the size, and a payload-length write only for a positive size |
| Receive.ReceivedPacket | src/sx127x/sx127x.py:316-334 | true exactly when RX_DONE was the only flag set; the flags end cleared. When true, the FIFO pointer is unchanged and neither it nor REG_OP_MODE is written. Otherwise the chip ends in single receive, with the pointer rewound unless it already was in single receive |
| Receive.RearmSingle | src/sx127x/sx127x.py:330-334 | not in single receive: rewind the pointer to the receive base, then enter single receive. Already there: the only transfer is the mode read |
| Receive.PacketLengthFollowsHardware | src/sx127x/sx127x.py:343-344 | while the header cache is in step, the length register `read_payload` reads is the one the chip's header mode uses: the payload length when implicit, the received count when explicit |
| Receive.ReadPayload | src/sx127x/sx127x.py:337-351 | the payload is exactly the packet-length bytes of the FIFO starting at REG_FIFO_RX_CURRENT_ADDR; only the pointer register changes |
| Receive.PullFifo | src/sx127x/sx127x.py:347-349 | `n` reads of REG_FIFO return the `n` FIFO bytes from the pointer on, in order, without changing the FIFO |
| Receive.HandleOnReceive | src/sx127x/sx127x.py:307-313 | the flags end cleared. A payload is delivered exactly when the CRC-error flag was clear and a callback is registered, and it is the last packet's FIFO bytes |
| Receive.OnReceive | src/sx127x/sx127x.py:283-291 | records the callback; on a board with an RX-done line, registering maps DIO0 to RX_DONE with one write |
| Receive.RssiBands | src/sx127x/sx127x.py:191 | the offset depends only on the side of 868 MHz: the same raw reading reads 7 dB lower on any carrier below 868 MHz than on any at or above it |
| Receive.PacketRssi | src/sx127x/sx127x.py:190-191 | RSSI = raw register − band offset, so it lies in −164..98 dBm; a single read |
| Eui.Intermediate | src/sx127x/config.py:39 | `fffe` is inserted after the first six characters, or at the end of a shorter string; the rest is kept |
| Eui.FirstOctetText | src/sx127x/config.py:39-40 | the two characters `int(…, 16)` parses, for MACs of any length |
| Eui.ParseOctet | src/sx127x/config.py:40 | `int(s, 16)` on two characters succeeds exactly when both are hex digits, with value 16·d0 + d1 < 256 |
| Eui.ToHex | src/sx127x/config.py:40 | `hex(n)[2:]` is at least one lower-case hex digit |
| Eui.ToHexRoundTrip | src/sx127x/config.py:40 | parsing what `hex` printed gives the number back |
| Eui.FlipLocalBit | src/sx127x/config.py:40 | `^ 2` changes bit 1 only |
| Eui.FlipLocalBitInvolution | src/sx127x/config.py:40 | flipping twice restores the octet, and an octet stays an octet |
| Eui.FlipIsXor | src/sx127x/config.py:40 | the arithmetic flip equals the exclusive-or with 0x02 on a byte |
| Eui.Mac2Eui | src/sx127x/config.py:38-40 | as written: ValueError exactly when the first two characters are not hex. Otherwise the result ends with the intermediate string after its first octet. Its head is the flipped octet in lower-case hex without zero-padding: one digit below 0x10, two from there on, and no leading zero |
| Eui.Mac2EuiLength | src/sx127x/config.py:38-40 | for a 12-digit MAC, the EUI has 16 digits exactly when the flipped first octet is at least 0x10, and 15 otherwise |
| Eui.Mac2EuiDropsLeadingZero | src/sx127x/config.py:40 | MAC `083af2000000` gives the 15-digit `a3af2fffe000000` |
| Eui.Mac2EuiPadded | src/sx127x/config.py:38-40 | corrected: the same conversion, always 4 characters longer than the MAC, with the flipped first octet as two digits |
| Eui.PaddedRoundTrip | src/sx127x/config.py:38-40 | corrected: a MAC of at least six lower-case digits is recovered from its EUI |
| Eui.PaddedShape | src/sx127x/config.py:38-40 | corrected: octets 2-3 of the MAC and everything after them are carried over, around `fffe` |

## Left out

- `packetSnr`: it returns a float (register × 0.25). Floating point is not modelled.
- `collect_garbage`, the `__init__` keyword-argument handling, `CONFIG` platform detection and the board wiring (pins, SPI set-up): none of these affect registers.
- The controller's reset pulse is out of scope. `BaseController.__init__` pulses the chip's reset line (src/sx127x/controller/base_controller.py:33-34, with `reset_pin` at 113-117), and every register returns to its power-on value before `add_transceiver` calls `init` (line 59). The model starts from an arbitrary chip state instead, so every promise about `init` holds whatever the registers held before.
- The SPI transfer is modelled as one register access. `readRegister`'s `int.from_bytes` over the response is taken to give the register byte.
- Attaching and detaching the RX-done interrupt handler in `onReceive` are left out. The model keeps only whether a callback is registered and whether the board has the pin (a parameter).
- The callback's own effects in `handleOnReceive`: the model returns the payload it would be passed.
- Threads: on the Raspberry Pi the interrupt handler runs concurrently with the main thread. The model runs operations one at a time.
- Transmit.EndPacket: the busy-wait has no bound in the source, which loops forever if TX_DONE never comes. The model is given the number of polls `airtime` before the chip finishes, so it does not model a chip that never signals.
- Transmit.Println: `string.encode()` (UTF-8) is not modelled; the payload is given as bytes.
- Receive.ReceivedPacket: the `None` returned when no packet arrived is modelled as `false`.
- Driver.HeaderCache: `__init__` never creates `_implicitHeaderMode`; `init` creates it at line 121. Until then, any code that reads the attribute raises AttributeError, and the model does not represent that error: every operation takes a driver state that already holds a cache. The affected calls are:
  - `implicitHeaderMode` and `receive` raise before any transfer (lines 276, 295).
  - `beginPacket`, and so `println`, raise after the standby write (lines 142-143, 180).
  - `receivedPacket` raises after `getIrqFlags`' read and write-back (lines 317-319).
  - `read_payload` raises after its pointer write (lines 340-343).
  - `handleOnReceive` raises only when the CRC-error flag is clear and a callback is registered, which `__init__` can already do (lines 79, 93). It then raises inside `read_payload` (lines 310-312).
  - `Unknown` is the `None` that exists only between lines 121 and 122 of `init`.
- Modem.SetFrequency: frequency keys and arguments are whole hertz; float keys such as `868E6` are modelled by their integer values.
- Setup.LowDataRateOptimize: `Setup.LowDataRateTest` evaluates `1000 / (bw / 2**sf) > 16` over the rationals, not in double precision, so a quotient within rounding of 16 may decide differently. Its faults (`Setup.DataRateRaises`) are those of CPython with a float bandwidth, as the default 125E3 is. An integer bandwidth behaves differently for spreading factors of 1024 and more. There is no OverflowError: the test holds until `bw / 2**sf` underflows to 0.0, and from there ZeroDivisionError is raised. MicroPython's single-precision floats are not modelled either.
- Setup.Program: its fault conditions are those of a float bandwidth; see Setup.LowDataRateOptimize.
- Setup.Init: its fault conditions are those of a float bandwidth; see Setup.LowDataRateOptimize.
- Setup.DefaultParams: the constructor's dictionary has no `frequency` key, and `init(**parameters)` replaces the whole dictionary whenever any keyword is given. So `init()` with no arguments raises KeyError after the sleep write, and reaching the defaults takes passing every key, `frequency` included. The model takes a complete `Params` record; that KeyError and any other missing key are not modelled.
- Eui.ParseOctet: only two-character inputs are modelled. Python's `int(s, 16)` also accepts a sign, surrounding whitespace and non-ASCII digits; those forms are modelled as ValueError.
- Eui.Mac2Eui: a negative first octet (possible only through a sign that `int` accepts) is not modelled.
- Eui.Eui2Mac: it is the inverse used to state the round trip, not a function of the source.

## Findings

| source | as written | input that shows it | evidently intended | confidence | as-written member | corrected member |
|---|---|---|---|---|---|---|
| src/sx127x/config.py:40 | `hex(int(mac[0:2], 16) ^ 2)[2:]` prints the flipped first octet without a leading zero | MAC `083af2000000`: 0x08 ^ 0x02 = 0x0a prints as `a`, so the EUI is the 15-digit `a3af2fffe000000` | the octet printed as two digits, giving the 16-digit EUI `0a3af2fffe000000`, from which the MAC can be recovered (Eui.PaddedRoundTrip) | high (not executed) | Eui.Mac2EuiDropsLeadingZero | Eui.Mac2EuiPadded |

=== FILE: device.dfy ===
/** The transceiver as the driver sees it: a file of 128 one-byte registers and
    a 256-byte packet FIFO. The FIFO pointer is register REG_FIFO_ADDR_PTR
    itself; every access to REG_FIFO reads or writes the FIFO byte under the
    pointer and advances the pointer by one, wrapping at 256. A write to
    REG_IRQ_FLAGS clears the flag bits that are set in the value written. */
module Device {
  import opened Registers

  /** The register file, indexed by 7-bit address. */
  type RegFile = s: seq<Byte> | |s| == 0x80
    witness seq(0x80, _ => 0x00)

  type Fifo = s: seq<Byte> | |s| == 256
    witness seq(256, _ => 0x00)

  datatype Chip = Chip(regs: RegFile, fifo: Fifo)
  {
    /** Where the next FIFO access lands. */
    function Pointer(): Byte
    {
      regs[REG_FIFO_ADDR_PTR]
    }
  }

  /** The FIFO pointer's auto-increment wraps at 256. */
  lemma Increment(p: Byte)
    ensures (p + 1) as int == if p as int == 255 then 0 else p as int + 1
  {
  }

  /** The chip's answer to a read of register `a`, and its state afterwards. */
  function Load(c: Chip, a: Addr): (r: (Chip, Byte))
    ensures a != REG_FIFO ==> r.0 == c && r.1 == c.regs[a]
    ensures a == REG_FIFO ==> r.1 == c.fifo[c.Pointer()]
    ensures a == REG_FIFO ==> r.0.fifo == c.fifo
    ensures a == REG_FIFO ==> r.0.Pointer() == c.Pointer() + 1
    ensures a == REG_FIFO ==> SameExcept(c, r.0, {REG_FIFO_ADDR_PTR})
  {
    if a == REG_FIFO then
      var p := c.Pointer();
      (c.(regs := c.regs[REG_FIFO_ADDR_PTR := p + 1]), c.fifo[p])
    else
      (c, c.regs[a])
  }

  /** The chip after a write of `v` to register `a`. */
  function Store(c: Chip, a: Addr, v: Byte): (c': Chip)
    ensures a == REG_FIFO ==> c'.fifo == c.fifo[c.Pointer() as int := v]
    ensures a == REG_FIFO ==> c'.Pointer() == c.Pointer() + 1
    ensures a == REG_FIFO ==> SameExcept(c, c'.(fifo := c.fifo), {REG_FIFO_ADDR_PTR})
    ensures a == REG_IRQ_FLAGS ==> c'.regs[a] == c.regs[a] & !v
    ensures a != REG_FIFO ==> c'.regs[a] == (if a == REG_IRQ_FLAGS then c.regs[a] & !v else v)
    ensures a != REG_FIFO ==> SameExcept(c, c', {a})
  {
    if a == REG_FIFO then
      var p := c.Pointer();
      Chip(c.regs[REG_FIFO_ADDR_PTR := p + 1], c.fifo[p as int := v])
    else if a == REG_IRQ_FLAGS then
      c.(regs := c.regs[a := c.regs[a] & !v])
    else
      c.(regs := c.regs[a := v])
  }

  /** What the chip does on its own when a transmission ends: it raises
      TX_DONE in REG_IRQ_FLAGS and returns to LoRa standby. */
  function TransmitDone(c: Chip): (c': Chip)
    ensures c'.regs[REG_IRQ_FLAGS] == c.regs[REG_IRQ_FLAGS] | IRQ_TX_DONE_MASK
    ensures c'.regs[REG_IRQ_FLAGS] & IRQ_TX_DONE_MASK != 0
    ensures c'.regs[REG_OP_MODE] == MODE_LONG_RANGE_MODE | MODE_STDBY
    ensures SameExcept(c, c', {REG_IRQ_FLAGS, REG_OP_MODE})
  {
    var flags := c.regs[REG_IRQ_FLAGS] | IRQ_TX_DONE_MASK;
    c.(regs := c.regs[REG_IRQ_FLAGS := flags][REG_OP_MODE := MODE_LONG_RANGE_MODE | MODE_STDBY])
  }

  /** `c'` differs from `c` at most in the registers of `s`; the FIFO is equal. */
  ghost predicate SameExcept(c: Chip, c': Chip, s: set<Addr>)
  {
    && c'.fifo == c.fifo
    && forall a: Addr :: a !in s ==> c'.regs[a] == c.regs[a]
  }

  lemma SameExceptTrans(c0: Chip, c1: Chip, c2: Chip, s1: set<Addr>, s2: set<Addr>)
    requires SameExcept(c0, c1, s1) && SameExcept(c1, c2, s2)
    ensures SameExcept(c0, c2, s1 + s2)
  {
  }
}

=== FILE: driver.dfy ===
/** The driver object of class SX127x: the chip it talks to plus the two values
    it caches (the header mode and the carrier frequency) and whether a receive
    callback is registered. Every driver operation is a function from this
    state to the next one, together with the transfers it issued in order. */
module Driver {
  import opened Registers
  import opened Device

  /** The driver's copy of the implicit-header bit. `Unknown` is the `None`
      that `init` stores just before its own header-mode call. */
  datatype HeaderCache = Unknown | Cached(implicit: bool)

  datatype Radio = Radio(chip: Chip, header: HeaderCache, frequency: int, onReceive: bool)

  /** Result of an operation that cannot raise. */
  datatype Io<T> = Io(radio: Radio, trace: seq<Transfer>, value: T)

  /** The exceptions the modelled driver code raises. */
  datatype Fault =
    | InvalidVersion     // the version register does not identify the chip
    | UnknownFrequency   // the frequency is not a key of the synthesizer table
    | ZeroDivision       // ZeroDivisionError in the data-rate test
    | FloatOverflow      // OverflowError in the data-rate test

  /** Result of an operation that may raise: the state and trace reached either way. */
  datatype Outcome<T> =
    | Done(radio: Radio, trace: seq<Transfer>, value: T)
    | Raised(radio: Radio, trace: seq<Transfer>, fault: Fault)

  /** Bit 0 of REG_MODEM_CONFIG_1: implicit-header mode in hardware. */
  function HeaderBit(c: Chip): bool
  {
    c.regs[REG_MODEM_CONFIG_1] & 0x01 == 0x01
  }

  /** The cached header mode, when known, agrees with the hardware bit. */
  predicate HeaderInSync(r: Radio)
  {
    r.header.Cached? ==> r.header.implicit == HeaderBit(r.chip)
  }

  /** `readRegister`: one read transfer with the address's high bit clear. */
  function ReadRegister(r: Radio, a: Addr): (io: Io<Byte>)
    ensures io.trace == [Read(a)]
    ensures io.radio.header == r.header && io.radio.frequency == r.frequency
    ensures io.radio.onReceive == r.onReceive
    ensures a != REG_FIFO ==> io.radio == r && io.value == r.chip.regs[a]
    ensures a == REG_FIFO ==> io.value == r.chip.fifo[r.chip.Pointer()]
    ensures a == REG_FIFO ==> io.radio.chip.Pointer() == r.chip.Pointer() + 1
    ensures a == REG_FIFO ==> SameExcept(r.chip, io.radio.chip, {REG_FIFO_ADDR_PTR})
  {
    var (c, v) := Load(r.chip, a);
    Io(r.(chip := c), [Read(a)], v)
  }

  /** `writeRegister`: one write transfer with the address's high bit set. */
  function WriteRegister(r: Radio, a: Addr, v: Byte): (io: Io<()>)
    ensures io.trace == [Write(a, v)]
    ensures io.radio.header == r.header && io.radio.frequency == r.frequency
    ensures io.radio.onReceive == r.onReceive
    ensures a != REG_FIFO && a != REG_IRQ_FLAGS ==> io.radio.chip.regs[a] == v
    ensures a == REG_IRQ_FLAGS ==> io.radio.chip.regs[a] == r.chip.regs[a] & !v
    ensures a != REG_FIFO ==> SameExcept(r.chip, io.radio.chip, {a})
    ensures a == REG_FIFO ==> io.radio.chip.fifo == r.chip.fifo[r.chip.Pointer() as int := v]
    ensures a == REG_FIFO ==> io.radio.chip.Pointer() == r.chip.Pointer() + 1
    ensures a == REG_FIFO ==> SameExcept(r.chip, io.radio.chip.(fifo := r.chip.fifo), {REG_FIFO_ADDR_PTR})
  {
    Io(r.(chip := Store(r.chip, a, v)), [Write(a, v)], ())
  }

  /** A write of operating mode `mode` with the LoRa flag set. */
  function SetMode(r: Radio, mode: Byte): (io: Io<()>)
    requires mode < 0x08
    ensures io.trace == [Write(REG_OP_MODE, MODE_LONG_RANGE_MODE | mode)]
    ensures io.radio.chip.regs[REG_OP_MODE] & 0x80 == 0x80
    ensures io.radio.chip.regs[REG_OP_MODE] & 0x07 == mode
    ensures SameExcept(r.chip, io.radio.chip, {REG_OP_MODE})
    ensures io.radio == r.(chip := io.radio.chip)
  {
    WriteRegister(r, REG_OP_MODE, MODE_LONG_RANGE_MODE | mode)
  }

  /** `sleep`: LoRa sleep mode, 0x80. */
  function Sleep(r: Radio): (io: Io<()>)
    ensures io.radio.chip.regs[REG_OP_MODE] == 0x80
    ensures io.trace == [Write(REG_OP_MODE, 0x80)]
    ensures SameExcept(r.chip, io.radio.chip, {REG_OP_MODE})
    ensures io.radio == r.(chip := io.radio.chip)
  {
    SetMode(r, MODE_SLEEP)
  }

  /** `standby`: LoRa standby mode, 0x81. */
  function Standby(r: Radio): (io: Io<()>)
    ensures io.radio.chip.regs[REG_OP_MODE] == 0x81
    ensures io.trace == [Write(REG_OP_MODE, 0x81)]
    ensures SameExcept(r.chip, io.radio.chip, {REG_OP_MODE})
    ensures io.radio == r.(chip := io.radio.chip)
  {
    SetMode(r, MODE_STDBY)
  }

  /** `implicitHeaderMode`: touches the hardware only when the request differs
      from the cache, then keeps cache and bit 0 of REG_MODEM_CONFIG_1 equal. */
  function ImplicitHeaderMode(r: Radio, implicit: bool): (io: Io<()>)
    ensures io.radio.header == Cached(implicit)
    ensures r.header == Cached(implicit) ==> io.trace == [] && io.radio == r
    ensures r.header != Cached(implicit) ==> HeaderBit(io.radio.chip) == implicit
    ensures r.header != Cached(implicit) ==>
      |io.trace| == 2 && io.trace[0] == Read(REG_MODEM_CONFIG_1)
      && io.trace[1].Write? && io.trace[1].addr == REG_MODEM_CONFIG_1
    ensures HeaderInSync(r) ==> HeaderInSync(io.radio)
    ensures io.radio.chip.regs[REG_MODEM_CONFIG_1] & 0xfe == r.chip.regs[REG_MODEM_CONFIG_1] & 0xfe
    ensures io.radio.chip.regs[REG_MODEM_CONFIG_1] >> 4 == r.chip.regs[REG_MODEM_CONFIG_1] >> 4
    ensures SameExcept(r.chip, io.radio.chip, {REG_MODEM_CONFIG_1})
    ensures io.radio.frequency == r.frequency && io.radio.onReceive == r.onReceive
  {
    if r.header == Cached(implicit) then
      Io(r, [], ())
    else
      var rd := ReadRegister(r.(header := Cached(implicit)), REG_MODEM_CONFIG_1);
      var config := HeaderConfig(rd.value, implicit);
      var wr := WriteRegister(rd.radio, REG_MODEM_CONFIG_1, config);
      Io(wr.radio, rd.trace + wr.trace, ())
  }

  /** REG_MODEM_CONFIG_1 with bit 0 set for implicit mode, cleared for explicit. */
  function HeaderConfig(config: Byte, implicit: bool): (v: Byte)
    ensures (v & 0x01 == 0x01) == implicit
    ensures v & 0xfe == config & 0xfe
    ensures v >> 4 == config >> 4
  {
    if implicit then config | 0x01 else config & 0xfe
  }

  /** Once the cache is in step with the hardware, any header-mode request
      leaves the cache equal to bit 0 of REG_MODEM_CONFIG_1. */
  lemma HeaderCacheTracksHardware(r: Radio, implicit: bool)
    requires HeaderInSync(r)
    ensures ImplicitHeaderMode(r, implicit).radio.header
         == Cached(HeaderBit(ImplicitHeaderMode(r, implicit).radio.chip))
  {
  }
}

=== FILE: eui.dfy ===
/** `Configuration.mac2eui`: the node's 64-bit LoRaWAN device EUI derived from
    its hexadecimal unique id (the MAC address) the usual way, by inserting
    `fffe` after the first three octets and flipping the universal/local bit
    (0x02) of the first octet. Strings are sequences of characters; the
    conversions `int(s, 16)` and `hex(n)[2:]` are modelled for the inputs the
    function meets. */
module Eui {

  /** The result of a conversion that may raise `ValueError`. */
  datatype Parsed<T> = Ok(value: T) | ValueError

  /** Where `mac[0:6]` ends: Python slicing stops at the end of a short string. */
  function Cut(mac: string): nat
  {
    if |mac| < 6 then |mac| else 6
  }

  /** `mac[0:6] + 'fffe' + mac[6:]`. */
  function Intermediate(mac: string): (m: string)
    ensures |m| == |mac| + 4
    ensures m[..Cut(mac)] == mac[..Cut(mac)]
    ensures m[Cut(mac)..Cut(mac) + 4] == "fffe"
    ensures m[Cut(mac) + 4..] == mac[Cut(mac)..]
  {
    mac[..Cut(mac)] + "fffe" + mac[Cut(mac)..]
  }

  /** The first two characters of the intermediate string: the MAC's own
      first two when it has them, padded from the inserted `fffe` otherwise. */
  lemma FirstOctetText(mac: string)
    ensures |mac| >= 2 ==> Intermediate(mac)[..2] == mac[..2]
    ensures |mac| == 1 ==> Intermediate(mac)[..2] == [mac[0], 'f']
    ensures |mac| == 0 ==> Intermediate(mac)[..2] == "ff"
  {
    var m := Intermediate(mac);
    if |mac| >= 2 {
      assert m[..2] == m[..Cut(mac)][..2];
    } else if |mac| == 1 {
      assert m[0] == m[..Cut(mac)][0];
      assert m[1] == m[Cut(mac)..Cut(mac) + 4][0];
    } else {
      assert m[..2] == m[Cut(mac)..Cut(mac) + 4][..2];
    }
  }

  predicate IsHexDigit(c: char)
  {
    '0' <= c <= '9' || 'a' <= c <= 'f' || 'A' <= c <= 'F'
  }

  predicate IsHexString(s: string)
  {
    forall i :: 0 <= i < |s| ==> IsHexDigit(s[i])
  }

  /** Lower-case hexadecimal, as `hex()` prints. */
  predicate IsLowerHexString(s: string)
  {
    forall i :: 0 <= i < |s| ==> '0' <= s[i] <= '9' || 'a' <= s[i] <= 'f'
  }

  function DigitValue(c: char): (d: nat)
    requires IsHexDigit(c)
    ensures d < 16
  {
    if '0' <= c <= '9' then c as int - '0' as int
    else if 'a' <= c <= 'f' then c as int - 'a' as int + 10
    else c as int - 'A' as int + 10
  }

  /** The lower-case digit for `d`. */
  function HexChar(d: nat): (c: char)
    requires d < 16
    ensures IsHexDigit(c) && DigitValue(c) == d
    ensures '0' <= c <= '9' || 'a' <= c <= 'f'
  {
    if d < 10 then ('0' as int + d) as char else ('a' as int + d - 10) as char
  }

  /** A lower-case digit is the digit of its own value. */
  lemma HexCharOfValue(c: char)
    requires '0' <= c <= '9' || 'a' <= c <= 'f'
    ensures HexChar(DigitValue(c)) == c
  {
  }

  /** The value of a string of hexadecimal digits, most significant first. */
  function ParseHex(s: string): nat
    requires IsHexString(s)
    decreases |s|
  {
    if s == [] then 0 else ParseHex(s[..|s| - 1]) * 16 + DigitValue(s[|s| - 1])
  }

  /** `int(s, 16)` on the two-character strings `mac2eui` gives it: the
      value when both are hexadecimal digits, `ValueError` otherwise. */
  function ParseOctet(s: string): (r: Parsed<nat>)
    requires |s| == 2
    ensures r.Ok? <==> IsHexDigit(s[0]) && IsHexDigit(s[1])
    ensures r.Ok? ==> r.value == 16 * DigitValue(s[0]) + DigitValue(s[1]) && r.value < 256
  {
    if IsHexDigit(s[0]) && IsHexDigit(s[1]) then
      assert s[..1][..0] == [] && s[..1][0] == s[0];
      assert ParseHex(s[..1]) == DigitValue(s[0]);
      Ok(ParseHex(s))
    else
      ValueError
  }

  /** `hex(n)[2:]` for `n >= 0`: lower-case digits without leading zeros,
      `"0"` for zero. */
  function ToHex(n: nat): (s: string)
    ensures |s| >= 1 && IsLowerHexString(s) && IsHexString(s)
    decreases n
  {
    if n < 16 then [HexChar(n)] else ToHex(n / 16) + [HexChar(n % 16)]
  }

  /** Reading back what `hex` printed gives the number. */
  lemma {:induction false} ToHexRoundTrip(n: nat)
    ensures ParseHex(ToHex(n)) == n
    decreases n
  {
    var s := ToHex(n);
    if n < 16 {
      assert s[..0] == [];
    } else {
      ToHexRoundTrip(n / 16);
      assert s[..|s| - 1] == ToHex(n / 16);
    }
  }

  /** No leading zero: one digit below 16, two from 16 to 255. */
  lemma ToHexWidth(n: nat)
    requires n < 256
    ensures |ToHex(n)| == if n < 16 then 1 else 2
    ensures n > 0 ==> ToHex(n)[0] != '0'
  {
  }

  /** `v ^ 2` for `v >= 0`: bit 1, the universal/local bit, flipped. */
  function FlipLocalBit(v: nat): (w: nat)
    ensures w / 4 == v / 4 && w % 2 == v % 2
    ensures (w / 2) % 2 != (v / 2) % 2
  {
    if (v / 2) % 2 == 1 then v - 2 else v + 2
  }

  /** Flipping twice restores the octet, and an octet stays an octet. */
  lemma FlipLocalBitInvolution(v: nat)
    ensures FlipLocalBit(FlipLocalBit(v)) == v
    ensures v < 256 ==> FlipLocalBit(v) < 256
  {
  }

  /** The arithmetic flip is the exclusive-or with 0x02 on a byte. */
  lemma FlipIsXor(b: bv8)
    ensures FlipLocalBit(b as int) == (b ^ 0x02) as int
  {
    BitOne(b);
    if b & 0x02 == 0x02 {
      assert (b ^ 0x02) == b - 0x02;
    } else {
      assert (b ^ 0x02) == b + 0x02;
    }
  }

  /** Bit 1 of a byte, read as a mask and as arithmetic. */
  lemma BitOne(b: bv8)
    ensures (b & 0x02 == 0x02) == ((b as int / 2) % 2 == 1)
  {
    assert (b & 0x02 == 0x02) == ((b >> 1) & 1 == 1);
    Half(b);
    Odd(b >> 1);
  }

  lemma Half(b: bv8)
    ensures (b >> 1) as int == b as int / 2
  {
  }

  lemma Odd(b: bv8)
    ensures (b & 1 == 1) == (b as int % 2 == 1)
  {
  }

  /** `mac2eui` as written: the first octet printed by `hex(...)[2:]`, which
      drops a leading zero, then the rest of the intermediate string. */
  function Mac2Eui(mac: string): (r: Parsed<string>)
    ensures r.Ok? <==>
      IsHexDigit(Intermediate(mac)[0]) && IsHexDigit(Intermediate(mac)[1])
    ensures r.Ok? ==> |r.value| >= |mac| + 3
    ensures r.Ok? ==> r.value[|r.value| - (|mac| + 2)..] == Intermediate(mac)[2..]
    ensures r.Ok? ==>
      var head := r.value[..|r.value| - (|mac| + 2)];
      var flip := FlipLocalBit(ParseOctet(Intermediate(mac)[..2]).value);
      && IsHexString(head) && IsLowerHexString(head) && ParseHex(head) == flip
      && |head| == (if flip < 16 then 1 else 2)
      && (flip > 0 ==> head[0] != '0')
  {
    var m := Intermediate(mac);
    match ParseOctet(m[..2])
    case ValueError => ValueError
    case Ok(v) =>
      var head := ToHex(FlipLocalBit(v));
      ToHexRoundTrip(FlipLocalBit(v));
      FlipLocalBitInvolution(v);
      ToHexWidth(FlipLocalBit(v));
      assert (head + m[2..])[..|head|] == head;
      Ok(head + m[2..])
  }

  /** The EUI of a 12-digit MAC has 16 digits exactly when the flipped first
      octet is at least 0x10; otherwise it has 15. */
  lemma Mac2EuiLength(mac: string)
    requires |mac| == 12 && IsHexString(mac)
    ensures Mac2Eui(mac).Ok?
    ensures |Mac2Eui(mac).value| == 16 <==> FlipLocalBit(ParseOctet(mac[..2]).value) >= 16
    ensures |Mac2Eui(mac).value| == 15 <==> FlipLocalBit(ParseOctet(mac[..2]).value) < 16
  {
    FirstOctetText(mac);
    var v := ParseOctet(mac[..2]).value;
    FlipLocalBitInvolution(v);
    ToHexWidth(FlipLocalBit(v));
  }

  /** A MAC whose first octet is 0x08 gives a 15-digit EUI: 0x08 ^ 0x02 is
      printed as `a`, not `0a`. */
  lemma Mac2EuiDropsLeadingZero()
    ensures Mac2Eui("083af2000000") == Ok("a3af2fffe000000")
  {
    var mac := "083af2000000";
    var m := Intermediate(mac);
    assert m == "083af2fffe000000";
    assert m[..2] == "08";
    assert ParseOctet("08") == Ok(8);
    assert FlipLocalBit(8) == 10;
    assert ToHex(10) == "a";
    assert m[2..] == "3af2fffe000000";
    assert ToHex(FlipLocalBit(8)) + m[2..] == "a3af2fffe000000";
  }

  /** Exactly two lower-case digits for an octet. */
  function Hex2(n: nat): (s: string)
    requires n < 256
    ensures |s| == 2 && IsLowerHexString(s) && IsHexString(s)
    ensures 16 * DigitValue(s[0]) + DigitValue(s[1]) == n
  {
    [HexChar(n / 16), HexChar(n % 16)]
  }

  /** Two lower-case digits print back as themselves. */
  lemma Hex2OfText(s: string)
    requires |s| == 2 && IsLowerHexString(s)
    ensures Hex2(16 * DigitValue(s[0]) + DigitValue(s[1])) == s
  {
    HexCharOfValue(s[0]);
    HexCharOfValue(s[1]);
  }

  /** `mac2eui` with the first octet always printed as two digits. */
  function Mac2EuiPadded(mac: string): (r: Parsed<string>)
    ensures r.Ok? <==>
      IsHexDigit(Intermediate(mac)[0]) && IsHexDigit(Intermediate(mac)[1])
    ensures r.Ok? ==> |r.value| == |mac| + 4
    ensures r.Ok? ==> r.value[2..] == Intermediate(mac)[2..]
    ensures r.Ok? ==>
      IsHexDigit(r.value[0]) && IsHexDigit(r.value[1])
      && 16 * DigitValue(r.value[0]) + DigitValue(r.value[1])
         == FlipLocalBit(ParseOctet(Intermediate(mac)[..2]).value)
  {
    var m := Intermediate(mac);
    match ParseOctet(m[..2])
    case ValueError => ValueError
    case Ok(v) =>
      FlipLocalBitInvolution(v);
      Ok(Hex2(FlipLocalBit(v)) + m[2..])
  }

  /** The MAC back from an EUI built from a MAC of at least six digits: flip
      the local bit back and take out `fffe`. */
  function Eui2Mac(eui: string): (r: Parsed<string>)
    requires |eui| >= 10
    ensures r.Ok? <==> IsHexDigit(eui[0]) && IsHexDigit(eui[1])
    ensures r.Ok? ==> |r.value| == |eui| - 4
  {
    match ParseOctet(eui[..2])
    case ValueError => ValueError
    case Ok(v) =>
      FlipLocalBitInvolution(v);
      Ok(Hex2(FlipLocalBit(v)) + eui[2..6] + eui[10..])
  }

  /** With the leading zero kept, `mac2eui` loses nothing: a MAC of at least
      six lower-case hexadecimal digits comes back from its EUI (which exists,
      by `PaddedShape`). */
  lemma PaddedRoundTrip(mac: string, eui: string)
    requires |mac| >= 6 && IsLowerHexString(mac)
    requires Mac2EuiPadded(mac) == Ok(eui)
    ensures Eui2Mac(eui) == Ok(mac)
  {
    FirstOctetText(mac);
    var v := ParseOctet(mac[..2]).value;
    FlipLocalBitInvolution(v);
    assert eui[..2] == Hex2(FlipLocalBit(v));
    assert ParseOctet(eui[..2]).value == FlipLocalBit(v);
    Hex2OfText(mac[..2]);
    assert Hex2(v) == mac[..2];
    assert eui[2..6] == mac[2..6];
    assert eui[10..] == mac[6..];
    assert mac == mac[..2] + mac[2..6] + mac[6..];
  }

  /** Every MAC of at least six lower-case digits gets a 4-digit-longer EUI
      whose first octet differs from the MAC's in the local bit only. */
  lemma PaddedShape(mac: string)
    requires |mac| >= 6 && IsLowerHexString(mac)
    ensures Mac2EuiPadded(mac).Ok?
    ensures |Mac2EuiPadded(mac).value| == |mac| + 4
    ensures Mac2EuiPadded(mac).value[10..] == mac[6..]
    ensures Mac2EuiPadded(mac).value[2..6] == mac[2..6]
  {
    FirstOctetText(mac);
  }
}

=== FILE: modem.dfy ===
/** The modulation-parameter setters of the driver: each one clamps or looks up
    its argument, encodes it into a register field and, for fields that share a
    register, keeps every other bit of that register. */
module Modem {
  import opened Registers
  import opened Device
  import opened Driver

  // ---------------------------------------------------------------- Tx power

  /** The REG_PA_CONFIG byte for a requested level: the RFO output clamps to
      0..14 dBm behind pattern 0x70, the PA_BOOST output clamps to 2..17 dBm and
      stores the level minus 2 behind 0x80. */
  function PaConfig(level: int, outputPin: int): (v: Byte)
    ensures outputPin == PA_OUTPUT_RFO_PIN ==>
      v & 0xf0 == 0x70 && (v & 0x0f) as int == Clamp(level, 0, 14)
    ensures outputPin != PA_OUTPUT_RFO_PIN ==>
      v & 0xf0 == 0x80 && (v & 0x0f) as int == Clamp(level, 2, 17) - 2
    ensures outputPin != PA_OUTPUT_RFO_PIN ==> 0x80 <= v <= 0x8f
  {
    var n := if outputPin == PA_OUTPUT_RFO_PIN then Clamp(level, 0, 14) else Clamp(level, 2, 17) - 2;
    var b := ByteOf(n);
    ByteLess(b, 16);
    if outputPin == PA_OUTPUT_RFO_PIN then 0x70 | b else PA_BOOST | b
  }

  /** The output power in dBm that the chip produces for a REG_PA_CONFIG byte of
      either shape the driver writes: on PA_BOOST, 17 - (15 - OutputPower); on
      RFO with MaxPower 7 (Pmax 15 dBm), 15 - (15 - OutputPower). */
  function OutputPowerDbm(v: Byte): int
  {
    var outputPower := (v & 0x0f) as int;
    if v & 0x80 == 0x80 then 17 - (15 - outputPower) else 15 - (15 - outputPower)
  }

  /** `setTxPower`: exactly one write, to REG_PA_CONFIG, which then makes the
      chip transmit at the clamped level. */
  function SetTxPower(r: Radio, level: int, outputPin: int): (io: Io<()>)
    ensures |io.trace| == 1 && io.trace[0].Write? && io.trace[0].addr == REG_PA_CONFIG
    ensures io.radio.chip.regs[REG_PA_CONFIG] == PaConfig(level, outputPin)
    ensures OutputPowerDbm(io.radio.chip.regs[REG_PA_CONFIG])
         == if outputPin == PA_OUTPUT_RFO_PIN then Clamp(level, 0, 14) else Clamp(level, 2, 17)
    ensures SameExcept(r.chip, io.radio.chip, {REG_PA_CONFIG})
    ensures io.radio == r.(chip := io.radio.chip)
  {
    WriteRegister(r, REG_PA_CONFIG, PaConfig(level, outputPin))
  }

  /** The boost-path examples: level 2 is 0x80; levels 17 and 20 both give 0x8f. */
  lemma PaBoostExamples()
    ensures PaConfig(2, PA_OUTPUT_PA_BOOST_PIN) == 0x80
    ensures PaConfig(17, PA_OUTPUT_PA_BOOST_PIN) == 0x8f
    ensures PaConfig(20, PA_OUTPUT_PA_BOOST_PIN) == 0x8f
    ensures PaConfig(-3, PA_OUTPUT_RFO_PIN) == 0x70
    ensures PaConfig(14, PA_OUTPUT_RFO_PIN) == 0x7e
  {
  }

  // ---------------------------------------------------------------- Frequency

  /** The synthesizer table: supported carrier (Hz) to (MSB, MID, LSB). */
  const FrfTable: map<int, (Byte, Byte, Byte)> := map[
    169_000_000 := (42, 64, 0),
    433_000_000 := (108, 64, 0),
    434_000_000 := (108, 128, 0),
    866_000_000 := (216, 128, 0),
    868_000_000 := (217, 0, 0),
    915_000_000 := (228, 192, 0)]

  /** The 24-bit synthesizer word held in the three frequency registers. */
  function Frf(c: Chip): int
  {
    c.regs[REG_FRF_MSB] as int * 65536 + c.regs[REG_FRF_MID] as int * 256 + c.regs[REG_FRF_LSB] as int
  }

  /** The chip's carrier is Frf * 32 MHz / 2^19: the frequency registers
      program exactly `hz`. */
  predicate TunedTo(c: Chip, hz: int)
  {
    Frf(c) * 32_000_000 == hz * 524_288
  }

  /** `setFrequency`: the cache takes the request first; a frequency outside
      the table raises before any transfer, a listed one writes its triple. */
  function SetFrequency(r: Radio, hz: int): (o: Outcome<()>)
    ensures o.radio.frequency == hz
    ensures o.Raised? <==> hz !in FrfTable
    ensures o.Raised? ==> o.fault == UnknownFrequency && o.trace == [] && o.radio.chip == r.chip
    ensures o.Done? ==>
      && (o.radio.chip.regs[REG_FRF_MSB], o.radio.chip.regs[REG_FRF_MID], o.radio.chip.regs[REG_FRF_LSB])
         == FrfTable[hz]
      && TunedTo(o.radio.chip, hz)
      && |o.trace| == 3
      && o.trace[0].Write? && o.trace[0].addr == REG_FRF_MSB
      && o.trace[1].Write? && o.trace[1].addr == REG_FRF_MID
      && o.trace[2].Write? && o.trace[2].addr == REG_FRF_LSB
    ensures SameExcept(r.chip, o.radio.chip, {REG_FRF_MSB, REG_FRF_MID, REG_FRF_LSB})
    ensures o.radio.header == r.header && o.radio.onReceive == r.onReceive
  {
    var r1 := r.(frequency := hz);
    if hz !in FrfTable then
      Raised(r1, [], UnknownFrequency)
    else
      var (msb, mid, lsb) := FrfTable[hz];
      var w1 := WriteRegister(r1, REG_FRF_MSB, msb);
      var w2 := WriteRegister(w1.radio, REG_FRF_MID, mid);
      var w3 := WriteRegister(w2.radio, REG_FRF_LSB, lsb);
      FrfTableExact(hz);
      Done(w3.radio, w1.trace + w2.trace + w3.trace, ())
  }

  /** Every table entry is the exact synthesizer word of its key. */
  lemma FrfTableExact(hz: int)
    requires hz in FrfTable
    ensures var (msb, mid, lsb) := FrfTable[hz];
      (msb as int * 65536 + mid as int * 256 + lsb as int) * 32_000_000 == hz * 524_288
  {
  }

  /** Distinct supported frequencies program distinct register triples, so
      reading the three registers back identifies the carrier. */
  lemma FrfTableInjective(f1: int, f2: int)
    requires f1 in FrfTable && f2 in FrfTable && FrfTable[f1] == FrfTable[f2]
    ensures f1 == f2
  {
    FrfTableExact(f1);
    FrfTableExact(f2);
  }

  // ---------------------------------------------------------------- Bandwidth

  /** The nine bandwidth bins, in whole hertz, ascending. */
  const BandwidthBins: seq<int> := [7800, 10400, 15600, 20800, 31250, 41700, 62500, 125000, 250000]

  /** The first bin at or after index `k` that is at least `sbw`, or 9. */
  function FirstBinFrom(sbw: int, k: nat): (i: nat)
    requires k <= |BandwidthBins|
    ensures k <= i <= |BandwidthBins|
    ensures i < |BandwidthBins| ==> sbw <= BandwidthBins[i]
    ensures forall j :: k <= j < i ==> BandwidthBins[j] < sbw
    decreases |BandwidthBins| - k
  {
    if k == |BandwidthBins| then k
    else if sbw <= BandwidthBins[k] then k
    else FirstBinFrom(sbw, k + 1)
  }

  /** The encoded bandwidth: the least index whose bin is at least `sbw`,
      9 when the request exceeds every bin. */
  function BandwidthIndex(sbw: int): (i: nat)
    ensures i <= 9
    ensures i < 9 ==> sbw <= BandwidthBins[i]
    ensures forall j :: 0 <= j < i ==> BandwidthBins[j] < sbw
    ensures i == 9 <==> 250000 < sbw
  {
    FirstBinFrom(sbw, 0)
  }

  lemma BandwidthBinsAscending(i: int, j: int)
    requires 0 <= i < j < |BandwidthBins|
    ensures BandwidthBins[i] < BandwidthBins[j]
  {
  }

  /** A listed bandwidth encodes as its own index. */
  lemma BandwidthIndexOfBin(i: int)
    requires 0 <= i < |BandwidthBins|
    ensures BandwidthIndex(BandwidthBins[i]) == i
  {
    var k := BandwidthIndex(BandwidthBins[i]);
    if k < i {
      BandwidthBinsAscending(k, i);
    }
  }

  /** Ceiling selection is monotone in the request. */
  lemma BandwidthIndexMonotone(a: int, b: int)
    requires a <= b
    ensures BandwidthIndex(a) <= BandwidthIndex(b)
  {
    var ia, ib := BandwidthIndex(a), BandwidthIndex(b);
  }

  /** 20 kHz is not a bin; the ceiling choice is 20.8 kHz, index 3. */
  lemma BandwidthExample()
    ensures BandwidthIndex(20000) == 3
    ensures BandwidthIndex(125000) == 7
    ensures BandwidthIndex(500000) == 9
  {
    assert BandwidthBins[2] < 20000 <= BandwidthBins[3];
    assert BandwidthBins[6] < 125000 <= BandwidthBins[7];
  }

  /** REG_MODEM_CONFIG_1 with bits 7-4 replaced by `index`. */
  function BandwidthConfig(config: Byte, index: nat): (v: Byte)
    requires index < 16
    ensures (v >> 4) as int == index
    ensures v & 0x0f == config & 0x0f
  {
    var b := ByteOf(index);
    ByteLess(b, 16);
    var v := (config & 0x0f) | (b << 4);
    assert v >> 4 == b;
    v
  }

  /** `setSignalBandwidth`: the bin index goes to bits 7-4 of
      REG_MODEM_CONFIG_1; bits 3-0 are kept. */
  function SetSignalBandwidth(r: Radio, sbw: int): (io: Io<()>)
    ensures (io.radio.chip.regs[REG_MODEM_CONFIG_1] >> 4) as int == BandwidthIndex(sbw)
    ensures io.radio.chip.regs[REG_MODEM_CONFIG_1] & 0x0f == r.chip.regs[REG_MODEM_CONFIG_1] & 0x0f
    ensures |io.trace| == 2 && io.trace[0] == Read(REG_MODEM_CONFIG_1)
    ensures io.trace[1].Write? && io.trace[1].addr == REG_MODEM_CONFIG_1
    ensures SameExcept(r.chip, io.radio.chip, {REG_MODEM_CONFIG_1})
    ensures io.radio == r.(chip := io.radio.chip)
  {
    var rd := ReadRegister(r, REG_MODEM_CONFIG_1);
    var wr := WriteRegister(rd.radio, REG_MODEM_CONFIG_1, BandwidthConfig(rd.value, BandwidthIndex(sbw)));
    Io(wr.radio, rd.trace + wr.trace, ())
  }

  // ---------------------------------------------------------------- Spreading factor

  /** REG_MODEM_CONFIG_2 with bits 7-4 replaced by spreading factor `sf`. */
  function SpreadingConfig(config: Byte, sf: int): (v: Byte)
    requires 6 <= sf <= 12
    ensures (v >> 4) as int == sf
    ensures v & 0x0f == config & 0x0f
  {
    var b := ByteOf(sf);
    ByteLess(b, 16);
    var v := (config & 0x0f) | ((b << 4) & 0xf0);
    assert v >> 4 == b;
    v
  }

  /** The detection (optimise, threshold) pair the chip needs for `sf`. */
  function DetectionPair(sf: int): (Byte, Byte)
  {
    (if sf == 6 then 0xc5 else 0xc3, if sf == 6 then 0x0c else 0x0a)
  }

  /** `setSpreadingFactor`: clamps to 6..12, writes the detection pair that
      spreading factor 6 alone needs, then puts the factor in bits 7-4 of
      REG_MODEM_CONFIG_2, keeping bits 3-0. */
  function SetSpreadingFactor(r: Radio, sf: int): (io: Io<()>)
    ensures (io.radio.chip.regs[REG_MODEM_CONFIG_2] >> 4) as int == Clamp(sf, 6, 12)
    ensures io.radio.chip.regs[REG_MODEM_CONFIG_2] & 0x0f == r.chip.regs[REG_MODEM_CONFIG_2] & 0x0f
    ensures var pair := (io.radio.chip.regs[REG_DETECTION_OPTIMIZE], io.radio.chip.regs[REG_DETECTION_THRESHOLD]);
      (pair == (0xc5, 0x0c) <==> Clamp(sf, 6, 12) == 6)
      && (pair == (0xc3, 0x0a) <==> Clamp(sf, 6, 12) != 6)
    ensures |io.trace| == 4
    ensures WritesOnly(io.trace, {REG_DETECTION_OPTIMIZE, REG_DETECTION_THRESHOLD, REG_MODEM_CONFIG_2})
    ensures SameExcept(r.chip, io.radio.chip, {REG_DETECTION_OPTIMIZE, REG_DETECTION_THRESHOLD, REG_MODEM_CONFIG_2})
    ensures io.radio == r.(chip := io.radio.chip)
  {
    var sf' := Clamp(sf, 6, 12);
    var (optimize, threshold) := DetectionPair(sf');
    var w1 := WriteRegister(r, REG_DETECTION_OPTIMIZE, optimize);
    var w2 := WriteRegister(w1.radio, REG_DETECTION_THRESHOLD, threshold);
    var rd := ReadRegister(w2.radio, REG_MODEM_CONFIG_2);
    var w3 := WriteRegister(rd.radio, REG_MODEM_CONFIG_2, SpreadingConfig(rd.value, sf'));
    Io(w3.radio, w1.trace + w2.trace + rd.trace + w3.trace, ())
  }

  // ---------------------------------------------------------------- Coding rate

  /** REG_MODEM_CONFIG_1 with bits 3-1 replaced by `cr`. */
  function CodingRateConfig(config: Byte, cr: int): (v: Byte)
    requires 1 <= cr <= 4
    ensures ((v & 0x0e) >> 1) as int == cr
    ensures v & 0xf1 == config & 0xf1
    ensures v >> 4 == config >> 4
  {
    var b := ByteOf(cr);
    ByteLess(b, 8);
    var v := (config & 0xf1) | (b << 1);
    assert (v & 0x0e) >> 1 == b;
    v
  }

  /** `setCodingRate`: the denominator, clamped to 5..8, is stored minus 4
      (a value 1..4) in bits 3-1 of REG_MODEM_CONFIG_1; the other bits stay. */
  function SetCodingRate(r: Radio, denominator: int): (io: Io<()>)
    ensures var cr := ((io.radio.chip.regs[REG_MODEM_CONFIG_1] & 0x0e) >> 1) as int;
      1 <= cr <= 4 && cr + 4 == Clamp(denominator, 5, 8)
    ensures io.radio.chip.regs[REG_MODEM_CONFIG_1] & 0xf1 == r.chip.regs[REG_MODEM_CONFIG_1] & 0xf1
    ensures io.radio.chip.regs[REG_MODEM_CONFIG_1] >> 4 == r.chip.regs[REG_MODEM_CONFIG_1] >> 4
    ensures |io.trace| == 2 && io.trace[0] == Read(REG_MODEM_CONFIG_1)
    ensures io.trace[1].Write? && io.trace[1].addr == REG_MODEM_CONFIG_1
    ensures SameExcept(r.chip, io.radio.chip, {REG_MODEM_CONFIG_1})
    ensures io.radio == r.(chip := io.radio.chip)
  {
    var cr := Clamp(denominator, 5, 8) - 4;
    var rd := ReadRegister(r, REG_MODEM_CONFIG_1);
    var wr := WriteRegister(rd.radio, REG_MODEM_CONFIG_1, CodingRateConfig(rd.value, cr));
    Io(wr.radio, rd.trace + wr.trace, ())
  }

  // ---------------------------------------------------------------- Preamble, sync word, CRC

  /** A 16-bit register pair's value for an integer written to it a byte at a time. */
  function Word16(n: int): (w: int)
    ensures 0 <= w < 65536
  {
    n % 65536
  }

  /** `setPreambleLength`: `(length >> 8) & 0xff` then `length & 0xff`; with a
      positive divisor Dafny's `/` and `%` are Python's floor forms, so the
      register pair holds `length` modulo 2^16 for every integer. */
  function SetPreambleLength(r: Radio, length: int): (io: Io<()>)
    ensures io.radio.chip.regs[REG_PREAMBLE_MSB] as int * 256 + io.radio.chip.regs[REG_PREAMBLE_LSB] as int
         == Word16(length)
    ensures |io.trace| == 2
    ensures io.trace[0].Write? && io.trace[0].addr == REG_PREAMBLE_MSB
    ensures io.trace[1].Write? && io.trace[1].addr == REG_PREAMBLE_LSB
    ensures SameExcept(r.chip, io.radio.chip, {REG_PREAMBLE_MSB, REG_PREAMBLE_LSB})
    ensures io.radio == r.(chip := io.radio.chip)
  {
    var msb := ByteOf((length / 256) % 256);
    var lsb := ByteOf(length % 256);
    PreambleSplit(length);
    var w1 := WriteRegister(r, REG_PREAMBLE_MSB, msb);
    var w2 := WriteRegister(w1.radio, REG_PREAMBLE_LSB, lsb);
    Io(w2.radio, w1.trace + w2.trace, ())
  }

  lemma PreambleSplit(length: int)
    ensures ((length / 256) % 256) * 256 + length % 256 == Word16(length)
  {
    var q := length / 256;
    var q2 := length / 65536;
    assert length == q * 256 + length % 256;
    assert q == (q / 256) * 256 + q % 256;
    assert length / 65536 == q / 256;
  }

  /** `setSyncWord`: one write of the byte to REG_SYNC_WORD. */
  function SetSyncWord(r: Radio, sw: Byte): (io: Io<()>)
    ensures io.radio.chip.regs[REG_SYNC_WORD] == sw
    ensures |io.trace| == 1 && io.trace[0].Write? && io.trace[0].addr == REG_SYNC_WORD
    ensures SameExcept(r.chip, io.radio.chip, {REG_SYNC_WORD})
    ensures io.radio == r.(chip := io.radio.chip)
  {
    WriteRegister(r, REG_SYNC_WORD, sw)
  }

  /** REG_MODEM_CONFIG_2 with bit 2 (payload CRC on) set or cleared. */
  function CrcConfig(config: Byte, enable: bool): (v: Byte)
    ensures (v & 0x04 == 0x04) == enable
    ensures v & 0xfb == config & 0xfb
    ensures v >> 4 == config >> 4
  {
    if enable then config | 0x04 else config & 0xfb
  }

  /** `enableCRC`: bit 2 of REG_MODEM_CONFIG_2 follows the request; the other
      bits stay. */
  function EnableCrc(r: Radio, enable: bool): (io: Io<()>)
    ensures (io.radio.chip.regs[REG_MODEM_CONFIG_2] & 0x04 == 0x04) == enable
    ensures io.radio.chip.regs[REG_MODEM_CONFIG_2] & 0xfb == r.chip.regs[REG_MODEM_CONFIG_2] & 0xfb
    ensures io.radio.chip.regs[REG_MODEM_CONFIG_2] >> 4 == r.chip.regs[REG_MODEM_CONFIG_2] >> 4
    ensures |io.trace| == 2 && io.trace[0] == Read(REG_MODEM_CONFIG_2)
    ensures io.trace[1].Write? && io.trace[1].addr == REG_MODEM_CONFIG_2
    ensures SameExcept(r.chip, io.radio.chip, {REG_MODEM_CONFIG_2})
    ensures io.radio == r.(chip := io.radio.chip)
  {
    var rd := ReadRegister(r, REG_MODEM_CONFIG_2);
    var wr := WriteRegister(rd.radio, REG_MODEM_CONFIG_2, CrcConfig(rd.value, enable));
    Io(wr.radio, rd.trace + wr.trace, ())
  }
}

=== FILE: receive.dfy ===
/** Receiving: continuous and single receive mode, the interrupt flags, the
    packet read-out and the received-signal strength. */
module Receive {
  import opened Registers
  import opened Device
  import opened Driver
  import opened Ring

  /** `getIrqFlags`: read REG_IRQ_FLAGS and write the same value back, which
      clears every flag that was set. The value is the flags as read. */
  method GetIrqFlags(r: Radio) returns (io: Io<Byte>)
    ensures io.value == r.chip.regs[REG_IRQ_FLAGS]
    ensures io.radio.chip.regs[REG_IRQ_FLAGS] == 0
    ensures io.trace == [Read(REG_IRQ_FLAGS), Write(REG_IRQ_FLAGS, io.value)]
    ensures SameExcept(r.chip, io.radio.chip, {REG_IRQ_FLAGS})
    ensures io.radio == r.(chip := io.radio.chip)
  {
    var flags := ReadRegister(r, REG_IRQ_FLAGS);
    var ack := WriteRegister(flags.radio, REG_IRQ_FLAGS, flags.value);
    ClearAll(flags.value);
    io := Io(ack.radio, flags.trace + ack.trace, flags.value);
  }

  /** Writing back what was read clears every flag. */
  lemma ClearAll(v: Byte)
    ensures v & !v == 0
  {
  }

  /** `receive`: the header mode that `size` asks for (implicit exactly when
      `size` is positive), the expected length when implicit, then continuous
      receive. The FIFO pointer is left alone: a packet starts at
      REG_FIFO_RX_CURRENT_ADDR. */
  method StartReceive(r: Radio, size: int) returns (io: Io<()>)
    ensures io.radio.chip.regs[REG_OP_MODE] == MODE_LONG_RANGE_MODE | MODE_RX_CONTINUOUS
    ensures io.radio.header == Cached(size > 0)
    ensures r.header != Cached(size > 0) ==> HeaderBit(io.radio.chip) == (size > 0)
    ensures HeaderInSync(r) ==> HeaderInSync(io.radio)
    ensures size > 0 ==> io.radio.chip.regs[REG_PAYLOAD_LENGTH] as int == size % 256
    ensures size <= 0 ==> io.radio.chip.regs[REG_PAYLOAD_LENGTH] == r.chip.regs[REG_PAYLOAD_LENGTH]
    ensures size > 0 ==> PacketLength(io.radio) as int == size % 256
    ensures size <= 0 ==> PacketLength(io.radio) == io.radio.chip.regs[REG_RX_NB_BYTES]
    ensures |io.trace| >= 1 && io.trace[|io.trace| - 1] == Write(REG_OP_MODE, MODE_LONG_RANGE_MODE | MODE_RX_CONTINUOUS)
    ensures SameExcept(r.chip, io.radio.chip, {REG_MODEM_CONFIG_1, REG_PAYLOAD_LENGTH, REG_OP_MODE})
    ensures io.radio.frequency == r.frequency && io.radio.onReceive == r.onReceive
  {
    var h := ExpectLength(r, size);
    var m := WriteRegister(h.radio, REG_OP_MODE, MODE_LONG_RANGE_MODE | MODE_RX_CONTINUOUS);
    io := Io(m.radio, h.trace + m.trace, ());
  }

  /** The common start of `receive` and `receivedPacket`: header mode from
      `size`, and REG_PAYLOAD_LENGTH set to the low byte of a positive `size`. */
  method ExpectLength(r: Radio, size: int) returns (io: Io<()>)
    ensures io.radio.header == Cached(size > 0)
    ensures r.header != Cached(size > 0) ==> HeaderBit(io.radio.chip) == (size > 0)
    ensures HeaderInSync(r) ==> HeaderInSync(io.radio)
    ensures size > 0 ==> io.radio.chip.regs[REG_PAYLOAD_LENGTH] as int == size % 256
    ensures size <= 0 ==> io.radio.chip.regs[REG_PAYLOAD_LENGTH] == r.chip.regs[REG_PAYLOAD_LENGTH]
    ensures size > 0 ==> |io.trace| >= 1 && io.trace[|io.trace| - 1] == Write(REG_PAYLOAD_LENGTH, io.radio.chip.regs[REG_PAYLOAD_LENGTH])
    ensures size <= 0 ==> NoWriteTo(io.trace, REG_PAYLOAD_LENGTH)
    ensures WritesOnly(io.trace, {REG_MODEM_CONFIG_1, REG_PAYLOAD_LENGTH})
    ensures SameExcept(r.chip, io.radio.chip, {REG_MODEM_CONFIG_1, REG_PAYLOAD_LENGTH})
    ensures io.radio.frequency == r.frequency && io.radio.onReceive == r.onReceive
  {
    var h := ImplicitHeaderMode(r, size > 0);
    if size > 0 {
      var l := WriteRegister(h.radio, REG_PAYLOAD_LENGTH, ByteOf(size % 256));
      io := Io(l.radio, h.trace + l.trace, ());
    } else {
      io := h;
    }
  }

  /** `receivedPacket`: clear and inspect the interrupt flags. The answer is
      yes exactly when RX_DONE was the only flag set. Otherwise, unless the
      chip is already in single-receive mode, rewind the FIFO pointer to the
      receive base and start single receive; the source returns `None`
      there, which is falsy, modelled as `false`. */
  method ReceivedPacket(r: Radio, size: int) returns (io: Io<bool>)
    ensures io.value <==> r.chip.regs[REG_IRQ_FLAGS] == IRQ_RX_DONE_MASK
    ensures io.radio.chip.regs[REG_IRQ_FLAGS] == 0
    ensures io.radio.header == Cached(size > 0)
    ensures HeaderInSync(r) ==> HeaderInSync(io.radio)
    ensures size > 0 ==> io.radio.chip.regs[REG_PAYLOAD_LENGTH] as int == size % 256
    ensures io.value ==> io.radio.chip.regs[REG_OP_MODE] == r.chip.regs[REG_OP_MODE]
    ensures !io.value ==> io.radio.chip.regs[REG_OP_MODE] == MODE_LONG_RANGE_MODE | MODE_RX_SINGLE
    ensures !io.value && r.chip.regs[REG_OP_MODE] != MODE_LONG_RANGE_MODE | MODE_RX_SINGLE ==>
      io.radio.chip.Pointer() == FIFO_RX_BASE_ADDR
    ensures r.chip.regs[REG_OP_MODE] == MODE_LONG_RANGE_MODE | MODE_RX_SINGLE ==>
      io.radio.chip.Pointer() == r.chip.Pointer()
    ensures io.value ==>
      && io.radio.chip.Pointer() == r.chip.Pointer()
      && NoWriteTo(io.trace, REG_FIFO_ADDR_PTR)
      && NoWriteTo(io.trace, REG_OP_MODE)
    ensures |io.trace| >= 2 && io.trace[..2] == [Read(REG_IRQ_FLAGS), Write(REG_IRQ_FLAGS, r.chip.regs[REG_IRQ_FLAGS])]
    ensures SameExcept(r.chip, io.radio.chip,
      {REG_IRQ_FLAGS, REG_MODEM_CONFIG_1, REG_PAYLOAD_LENGTH, REG_FIFO_ADDR_PTR, REG_OP_MODE})
    ensures io.radio.frequency == r.frequency && io.radio.onReceive == r.onReceive
  {
    var flags := GetIrqFlags(r);
    var h := ExpectLength(flags.radio, size);
    if flags.value == IRQ_RX_DONE_MASK {
      io := Io(h.radio, flags.trace + h.trace, true);
    } else {
      var rearm := RearmSingle(h.radio);
      io := Io(rearm.radio, flags.trace + h.trace + rearm.trace, false);
    }
  }

  /** The "no packet" branch of `receivedPacket`: read REG_OP_MODE and, if the
      chip is not in single receive, rewind the pointer and enter it. */
  method RearmSingle(r: Radio) returns (io: Io<()>)
    ensures io.radio.chip.regs[REG_OP_MODE] == MODE_LONG_RANGE_MODE | MODE_RX_SINGLE
    ensures r.chip.regs[REG_OP_MODE] != MODE_LONG_RANGE_MODE | MODE_RX_SINGLE ==>
      io.radio.chip.Pointer() == FIFO_RX_BASE_ADDR
      && io.trace == [Read(REG_OP_MODE), Write(REG_FIFO_ADDR_PTR, FIFO_RX_BASE_ADDR),
                      Write(REG_OP_MODE, MODE_LONG_RANGE_MODE | MODE_RX_SINGLE)]
    ensures r.chip.regs[REG_OP_MODE] == MODE_LONG_RANGE_MODE | MODE_RX_SINGLE ==>
      io.radio == r && io.trace == [Read(REG_OP_MODE)]
    ensures SameExcept(r.chip, io.radio.chip, {REG_FIFO_ADDR_PTR, REG_OP_MODE})
    ensures io.radio == r.(chip := io.radio.chip)
  {
    var mode := ReadRegister(r, REG_OP_MODE);
    if mode.value != MODE_LONG_RANGE_MODE | MODE_RX_SINGLE {
      var rewind := WriteRegister(mode.radio, REG_FIFO_ADDR_PTR, FIFO_RX_BASE_ADDR);
      var single := WriteRegister(rewind.radio, REG_OP_MODE, MODE_LONG_RANGE_MODE | MODE_RX_SINGLE);
      io := Io(single.radio, mode.trace + rewind.trace + single.trace, ());
    } else {
      io := Io(mode.radio, mode.trace, ());
    }
  }

  /** How many bytes `read_payload` takes: REG_PAYLOAD_LENGTH in implicit
      header mode, REG_RX_NB_BYTES otherwise. A header mode never set (the
      source's `None`) counts as explicit. */
  function PacketLength(r: Radio): Byte
  {
    if r.header == Cached(true) then r.chip.regs[REG_PAYLOAD_LENGTH] else r.chip.regs[REG_RX_NB_BYTES]
  }

  /** While the cache is in step with the hardware, the length register
      `read_payload` picks is the one the chip's own header mode uses: the
      fixed payload length in implicit mode, the received count in explicit. */
  lemma PacketLengthFollowsHardware(r: Radio)
    requires HeaderInSync(r) && r.header.Cached?
    ensures HeaderBit(r.chip) ==> PacketLength(r) == r.chip.regs[REG_PAYLOAD_LENGTH]
    ensures !HeaderBit(r.chip) ==> PacketLength(r) == r.chip.regs[REG_RX_NB_BYTES]
  {
  }

  /** `read_payload`: point the FIFO at the start of the last packet
      (REG_FIFO_RX_CURRENT_ADDR), read its length, then read that many bytes
      through REG_FIFO. The payload is the FIFO from that address on. */
  method ReadPayload(r: Radio) returns (io: Io<seq<Byte>>)
    ensures |io.value| == PacketLength(r) as int
    ensures io.value == Fetch(r.chip.fifo, r.chip.regs[REG_FIFO_RX_CURRENT_ADDR], PacketLength(r) as int)
    ensures io.radio.chip.Pointer()
         == Advance(r.chip.regs[REG_FIFO_RX_CURRENT_ADDR], PacketLength(r) as int)
    ensures io.trace == [Read(REG_FIFO_RX_CURRENT_ADDR),
                         Write(REG_FIFO_ADDR_PTR, r.chip.regs[REG_FIFO_RX_CURRENT_ADDR]),
                         Read(if r.header == Cached(true) then REG_PAYLOAD_LENGTH else REG_RX_NB_BYTES)]
                        + Reads(REG_FIFO, |io.value|)
    ensures SameExcept(r.chip, io.radio.chip, {REG_FIFO_ADDR_PTR})
    ensures io.radio == r.(chip := io.radio.chip)
  {
    var start := ReadRegister(r, REG_FIFO_RX_CURRENT_ADDR);
    var rewind := WriteRegister(start.radio, REG_FIFO_ADDR_PTR, start.value);
    var length := ReadRegister(rewind.radio,
      if rewind.radio.header == Cached(true) then REG_PAYLOAD_LENGTH else REG_RX_NB_BYTES);
    var bytes := PullFifo(length.radio, length.value as int);
    io := Io(bytes.radio, start.trace + rewind.trace + length.trace + bytes.trace, bytes.value);
  }

  /** The loop of `read_payload`: `n` reads of REG_FIFO, collected in order. */
  method PullFifo(r: Radio, n: nat) returns (io: Io<seq<Byte>>)
    ensures io.value == Fetch(r.chip.fifo, r.chip.Pointer(), n)
    ensures io.radio.chip.Pointer() == Advance(r.chip.Pointer(), n)
    ensures io.radio.chip.regs == r.chip.regs[REG_FIFO_ADDR_PTR := io.radio.chip.Pointer()]
    ensures io.radio.chip.fifo == r.chip.fifo
    ensures io.trace == Reads(REG_FIFO, n)
    ensures io.radio == r.(chip := io.radio.chip)
    decreases n
  {
    if n == 0 {
      io := Io(r, [], []);
    } else {
      var first := PullByte(r);
      var rest := PullFifo(first.radio, n - 1);
      io := Io(rest.radio, first.trace + rest.trace, [first.value] + rest.value);
    }
  }

  /** One REG_FIFO read: the byte under the pointer, which advances. */
  method PullByte(r: Radio) returns (io: Io<Byte>)
    ensures io.value == r.chip.fifo[r.chip.Pointer()]
    ensures io.radio.chip.Pointer() == r.chip.Pointer() + 1
    ensures io.radio.chip.regs == r.chip.regs[REG_FIFO_ADDR_PTR := io.radio.chip.Pointer()]
    ensures io.radio.chip.fifo == r.chip.fifo
    ensures io.trace == [Read(REG_FIFO)]
    ensures io.radio == r.(chip := io.radio.chip)
  {
    io := ReadRegister(r, REG_FIFO);
  }

  /** What `handleOnReceive` hands to the registered callback, if anything. */
  datatype Delivery = Delivered(payload: seq<Byte>) | NotDelivered

  /** `handleOnReceive`: clear the flags; when the CRC-error flag was clear and
      a callback is registered, read the payload and deliver it. The callback's
      own effects are not part of this model. */
  method HandleOnReceive(r: Radio) returns (io: Io<Delivery>)
    ensures io.value.Delivered? <==>
      r.chip.regs[REG_IRQ_FLAGS] & IRQ_PAYLOAD_CRC_ERROR_MASK == 0 && r.onReceive
    ensures io.value.Delivered? ==>
      var c := r.chip.regs[REG_IRQ_FLAGS := 0];
      io.value.payload == Fetch(r.chip.fifo, c[REG_FIFO_RX_CURRENT_ADDR],
        PacketLength(r.(chip := r.chip.(regs := c))) as int)
    ensures io.radio.chip.regs[REG_IRQ_FLAGS] == 0
    ensures |io.trace| >= 2 && io.trace[..2] == [Read(REG_IRQ_FLAGS), Write(REG_IRQ_FLAGS, r.chip.regs[REG_IRQ_FLAGS])]
    ensures io.value.NotDelivered? ==> |io.trace| == 2
    ensures SameExcept(r.chip, io.radio.chip, {REG_IRQ_FLAGS, REG_FIFO_ADDR_PTR})
    ensures io.radio == r.(chip := io.radio.chip)
  {
    var flags := GetIrqFlags(r);
    assert flags.radio.chip.regs == r.chip.regs[REG_IRQ_FLAGS := 0];
    if flags.value & IRQ_PAYLOAD_CRC_ERROR_MASK == 0 && flags.radio.onReceive {
      var payload := ReadPayload(flags.radio);
      io := Io(payload.radio, flags.trace + payload.trace, Delivered(payload.value));
    } else {
      io := Io(flags.radio, flags.trace, NotDelivered);
    }
  }

  /** `onReceive`: record whether a callback is registered; on a board with an
      RX-done interrupt line, registering one routes RX_DONE to DIO0
      (REG_DIO_MAPPING_1 := 0x00). Attaching and detaching the interrupt
      handler itself is not modelled. */
  method OnReceive(r: Radio, callback: bool, hasRxDonePin: bool) returns (io: Io<()>)
    ensures io.radio.onReceive == callback
    ensures hasRxDonePin && callback ==>
      io.radio.chip.regs[REG_DIO_MAPPING_1] == 0x00 && io.trace == [Write(REG_DIO_MAPPING_1, 0x00)]
    ensures !(hasRxDonePin && callback) ==> io.radio.chip == r.chip && io.trace == []
    ensures SameExcept(r.chip, io.radio.chip, {REG_DIO_MAPPING_1})
    ensures io.radio.header == r.header && io.radio.frequency == r.frequency
  {
    var registered := r.(onReceive := callback);
    if hasRxDonePin && callback {
      io := WriteRegister(registered, REG_DIO_MAPPING_1, 0x00);
    } else {
      io := Io(registered, [], ());
    }
  }

  /** The RSSI correction: 164 below 868 MHz (the low-frequency port), 157
      from there on. */
  function RssiOffset(frequency: int): int
  {
    if frequency < 868_000_000 then 164 else 157
  }

  /** `packetRssi`: the last packet's RSSI register less the band's offset,
      in dBm. */
  method PacketRssi(r: Radio) returns (io: Io<int>)
    ensures io.value + RssiOffset(r.frequency) == r.chip.regs[REG_PKT_RSSI_VALUE] as int
    ensures -164 <= io.value <= 255 - 157
    ensures io.radio == r && io.trace == [Read(REG_PKT_RSSI_VALUE)]
  {
    var raw := ReadRegister(r, REG_PKT_RSSI_VALUE);
    io := Io(raw.radio, raw.trace, raw.value as int - RssiOffset(r.frequency));
  }

  /** The offset depends only on the band: any two carriers on the same side
      of 868 MHz share it, and the same raw reading reads 7 dB lower on a
      carrier below 868 MHz than on one at or above it. */
  lemma RssiBands(low: int, high: int, raw: int)
    requires low < 868_000_000 <= high
    ensures raw - RssiOffset(low) == raw - RssiOffset(high) - 7
    ensures RssiOffset(low) == RssiOffset(433_000_000)
    ensures RssiOffset(high) == RssiOffset(915_000_000)
    ensures 100 - RssiOffset(868_000_000) == -57
    ensures 100 - RssiOffset(867_999_999) == -64
  {
  }
}

=== FILE: registers.dfy ===
/** Register map, operating-mode codes and the serial-bus transfer format of the
    SX127x LoRa transceiver, as used by the driver in src/sx127x/sx127x.py. */
module Registers {

  /** A value byte moved over the bus. Bit-vector so that the driver's masks and
      shifts read exactly as written. */
  type Byte = bv8

  /** A 7-bit register address. */
  type Addr = a: int | 0 <= a < 0x80

  // Register addresses.
  const REG_FIFO: Addr := 0x00
  const REG_OP_MODE: Addr := 0x01
  const REG_FRF_MSB: Addr := 0x06
  const REG_FRF_MID: Addr := 0x07
  const REG_FRF_LSB: Addr := 0x08
  const REG_PA_CONFIG: Addr := 0x09
  const REG_LNA: Addr := 0x0c
  const REG_FIFO_ADDR_PTR: Addr := 0x0d
  const REG_FIFO_TX_BASE_ADDR: Addr := 0x0e
  const REG_FIFO_RX_BASE_ADDR: Addr := 0x0f
  const REG_FIFO_RX_CURRENT_ADDR: Addr := 0x10
  const REG_IRQ_FLAGS_MASK: Addr := 0x11
  const REG_IRQ_FLAGS: Addr := 0x12
  const REG_RX_NB_BYTES: Addr := 0x13
  const REG_PKT_RSSI_VALUE: Addr := 0x1a
  const REG_PKT_SNR_VALUE: Addr := 0x1b
  const REG_MODEM_CONFIG_1: Addr := 0x1d
  const REG_MODEM_CONFIG_2: Addr := 0x1e
  const REG_PREAMBLE_MSB: Addr := 0x20
  const REG_PREAMBLE_LSB: Addr := 0x21
  const REG_PAYLOAD_LENGTH: Addr := 0x22
  const REG_FIFO_RX_BYTE_ADDR: Addr := 0x25
  const REG_MODEM_CONFIG_3: Addr := 0x26
  const REG_RSSI_WIDEBAND: Addr := 0x2c
  const REG_DETECTION_OPTIMIZE: Addr := 0x31
  const REG_DETECTION_THRESHOLD: Addr := 0x37
  const REG_SYNC_WORD: Addr := 0x39
  const REG_DIO_MAPPING_1: Addr := 0x40
  const REG_VERSION: Addr := 0x42

  /** Both FIFO base addresses the driver programs. */
  const FIFO_TX_BASE_ADDR: Byte := 0x00
  const FIFO_RX_BASE_ADDR: Byte := 0x00

  // Operating modes; the long-range flag selects the LoRa modem.
  const MODE_LONG_RANGE_MODE: Byte := 0x80
  const MODE_SLEEP: Byte := 0x00
  const MODE_STDBY: Byte := 0x01
  const MODE_TX: Byte := 0x03
  const MODE_RX_CONTINUOUS: Byte := 0x05
  const MODE_RX_SINGLE: Byte := 0x06

  const PA_BOOST: Byte := 0x80
  const PA_OUTPUT_RFO_PIN: int := 0
  const PA_OUTPUT_PA_BOOST_PIN: int := 1

  // Interrupt flag bits.
  const IRQ_TX_DONE_MASK: Byte := 0x08
  const IRQ_PAYLOAD_CRC_ERROR_MASK: Byte := 0x20
  const IRQ_RX_DONE_MASK: Byte := 0x40
  const IRQ_RX_TIME_OUT_MASK: Byte := 0x80

  /** The identifier the version register of a genuine chip holds. */
  const CHIP_VERSION: Byte := 0x12

  const MAX_PKT_LENGTH: int := 255

  /** `min(max(x, lo), hi)`, the driver's clamp idiom. */
  function Clamp(x: int, lo: int, hi: int): (r: int)
    requires lo <= hi
    ensures lo <= r <= hi
    ensures lo <= x <= hi ==> r == x
    ensures x < lo ==> r == lo
    ensures hi < x ==> r == hi
  {
    if x < lo then lo else if hi < x then hi else x
  }

  /** The byte whose unsigned value is `n`, built bit by bit from the top. */
  function ByteOf(n: int): (b: Byte)
    requires 0 <= n < 256
    ensures b as int == n
    decreases n
  {
    if n < 2 then (if n == 0 then 0 else 1)
    else
      var high := ByteOf(n / 2);
      var low: Byte := if n % 2 == 1 then 1 else 0;
      ShiftIn(high, low);
      (high << 1) | low
  }

  /** Appending bit `low` below a byte of at most seven bits doubles it and
      adds the bit. */
  lemma ShiftIn(high: Byte, low: Byte)
    requires high < 0x80 && low < 2
    ensures ((high << 1) | low) as int == 2 * high as int + low as int
  {
  }

  /** Unsigned comparison of bytes agrees with comparison of their values. */
  lemma ByteLess(b: Byte, c: Byte)
    ensures (b < c) == (b as int < c as int)
  {
  }

  /** The high and low nibbles of a byte, as values. */
  lemma ByteNibbles(b: Byte)
    ensures (b >> 4) as int == b as int / 16
    ensures (b & 0x0f) as int == b as int % 16
  {
  }

  /** One register access as the driver issues it. */
  datatype Transfer = Read(addr: Addr) | Write(addr: Addr, value: Byte)

  /** The two bytes clocked out for one transfer: the address byte, whose high
      bit is set for a write and clear for a read, then the value byte (0x00
      for a read, the controller's default). */
  function Frame(t: Transfer): (f: seq<Byte>)
    ensures |f| == 2
    ensures (f[0] & 0x80 == 0x80) <==> t.Write?
    ensures (f[0] & 0x7f) as int == t.addr
    ensures t.Write? ==> f[1] == t.value
    ensures t.Read? ==> f[1] == 0x00
  {
    AddressByte(t.addr);
    match t
    case Read(a) => [ByteOf(a) & 0x7f, 0x00]
    case Write(a, v) => [ByteOf(a) | 0x80, v]
  }

  /** The bit-vector facts behind `address & 0x7f` and `address | 0x80` for a
      7-bit address. */
  lemma AddressByte(a: Addr)
    ensures (ByteOf(a) & 0x7f) as int == a
    ensures (ByteOf(a) | 0x80) & 0x7f == ByteOf(a) & 0x7f
    ensures (ByteOf(a) | 0x80) & 0x80 == 0x80
    ensures ByteOf(a) & 0x80 == 0
  {
    var b := ByteOf(a);
    ByteLess(b, 0x80);
    assert b < 0x80;
    assert b & 0x7f == b;
  }

  /** What the chip makes of a two-byte frame. */
  function Unframe(f: seq<Byte>): Transfer
    requires |f| == 2
  {
    var a := (f[0] & 0x7f) as int;
    if f[0] & 0x80 == 0x80 then Write(a, f[1]) else Read(a)
  }

  /** Every transfer the driver issues is understood by the chip as issued. */
  lemma FrameRoundTrip(t: Transfer)
    ensures Unframe(Frame(t)) == t
  {
  }

  /** `n` reads of register `a` in a row. */
  function Reads(a: Addr, n: nat): seq<Transfer>
  {
    seq(n, _ => Read(a))
  }

  /** Transfers that only read leave no write in a trace. */
  predicate NoWrites(trace: seq<Transfer>)
  {
    forall i :: 0 <= i < |trace| ==> trace[i].Read?
  }

  /** Every write in the trace goes to one of the given registers. */
  predicate WritesOnly(trace: seq<Transfer>, regs: set<Addr>)
  {
    forall i :: 0 <= i < |trace| && trace[i].Write? ==> trace[i].addr in regs
  }

  /** The trace holds no write to register `a`. */
  predicate NoWriteTo(trace: seq<Transfer>, a: Addr)
  {
    forall i :: 0 <= i < |trace| && trace[i].Write? ==> trace[i].addr != a
  }
}

=== FILE: ring.dfy ===
/** The packet FIFO seen as a ring of 256 bytes: where consecutive REG_FIFO
    accesses land, what a run of writes leaves behind and what a run of reads
    returns. Positions are integers; the pointer is the byte register. */
module Ring {
  import opened Registers
  import opened Device

  /** How far FIFO position `k` lies after position `p`, going round the ring. */
  function Offset(k: int, p: int): (d: int)
    requires 0 <= k < 256 && 0 <= p < 256
    ensures 0 <= d < 256
  {
    if p <= k then k - p else k - p + 256
  }

  /** One step of the pointer brings every position other than the pointer's
      own one step closer. */
  lemma OffsetStep(k: int, q: int)
    requires 0 <= k < 256 && 0 <= q < 256 && k != q
    ensures Offset(k, if q == 255 then 0 else q + 1) == Offset(k, q) - 1
  {
  }

  /** Seen from the slot after `q`, `q` itself is the farthest slot, and
      the slot `i` after `q` is `i - 1` after the next one. */
  lemma SlotStep(q: int, i: int)
    requires 0 <= q < 256 && 0 <= i < 256
    ensures Offset(q, if q == 255 then 0 else q + 1) == 255
    ensures i > 0 ==> Slot(q, i) == Slot(if q == 255 then 0 else q + 1, i - 1)
    ensures Slot(q, 0) == q
  {
  }

  /** The FIFO position `i` steps after `p`. */
  function Slot(p: int, i: int): (k: int)
    requires 0 <= p < 256 && 0 <= i < 256
    ensures 0 <= k < 256 && Offset(k, p) == i
  {
    if p + i < 256 then p + i else p + i - 256
  }

  /** The FIFO after `data` is written into it from pointer `p` on, one byte
      after the other, the pointer wrapping at 256: what a run of REG_FIFO
      writes does. */
  function Deposit(fifo: Fifo, p: Byte, data: seq<Byte>): Fifo
    decreases |data|
  {
    if data == [] then fifo else Deposit(fifo[p as int := data[0]], p + 1, data[1..])
  }

  /** Where the pointer ends up after `n` FIFO accesses from `p`. */
  function Advance(p: Byte, n: nat): Byte
    decreases n
  {
    if n == 0 then p else Advance(p + 1, n - 1)
  }

  /** Within one turn of the ring the pointer moves `n` slots on. */
  lemma {:induction false} AdvanceWraps(p: Byte, n: nat)
    requires n < 256
    ensures Advance(p, n) as int == Slot(p as int, n)
    decreases n
  {
    if n > 0 {
      Increment(p);
      SlotStep(p as int, n);
      AdvanceWraps(p + 1, n - 1);
    }
  }

  /** A FIFO position that no byte of `data` reaches keeps its old value. */
  lemma {:induction false} DepositOutside(fifo: Fifo, p: Byte, data: seq<Byte>, k: int)
    requires 0 <= k < 256 && Offset(k, p as int) >= |data|
    ensures Deposit(fifo, p, data)[k] == fifo[k]
    decreases |data|
  {
    if data != [] {
      Increment(p);
      OffsetStep(k, p as int);
      DepositOutside(fifo[p as int := data[0]], p + 1, data[1..], k);
    }
  }

  /** Byte `i` of `data` lands `i` positions after the pointer. */
  lemma {:induction false} DepositAt(fifo: Fifo, p: Byte, data: seq<Byte>, i: int)
    requires |data| <= 256 && 0 <= i < |data|
    ensures Deposit(fifo, p, data)[Slot(p as int, i)] == data[i]
    decreases |data|
  {
    Increment(p);
    SlotStep(p as int, i);
    if i == 0 {
      DepositOutside(fifo[p as int := data[0]], p + 1, data[1..], p as int);
    } else {
      DepositAt(fifo[p as int := data[0]], p + 1, data[1..], i - 1);
    }
  }

  /** The bytes a run of `n` REG_FIFO reads from pointer `p` returns. */
  function Fetch(fifo: Fifo, p: Byte, n: nat): (s: seq<Byte>)
    ensures |s| == n
    decreases n
  {
    if n == 0 then [] else [fifo[p as int]] + Fetch(fifo, p + 1, n - 1)
  }

  /** Read `i` of the run returns the byte `i` positions after the pointer. */
  lemma {:induction false} FetchAt(fifo: Fifo, p: Byte, n: nat, i: int)
    requires n <= 256 && 0 <= i < n
    ensures Fetch(fifo, p, n)[i] == fifo[Slot(p as int, i)]
    decreases n
  {
    var rest := Fetch(fifo, p + 1, n - 1);
    assert Fetch(fifo, p, n) == [fifo[p as int]] + rest;
    SlotStep(p as int, i);
    if i > 0 {
      Increment(p);
      FetchAt(fifo, p + 1, n - 1, i - 1);
    }
  }

  /** Reading back from where a write run started returns what was written,
      as long as the run did not lap the ring. */
  lemma FifoRoundTrip(fifo: Fifo, p: Byte, data: seq<Byte>)
    requires |data| <= 256
    ensures Fetch(Deposit(fifo, p, data), p, |data|) == data
  {
    var f := Deposit(fifo, p, data);
    forall i | 0 <= i < |data|
      ensures Fetch(f, p, |data|)[i] == data[i]
    {
      FetchAt(f, p, |data|, i);
      DepositAt(fifo, p, data, i);
    }
  }
}

=== FILE: setup.dfy ===
/** The driver's `init` sequence: identify the chip, enter sleep, program every
    modulation parameter, decide low-data-rate optimisation, set the FIFO base
    addresses and leave the chip in standby. */
module Setup {
  import opened Registers
  import opened Device
  import opened Driver
  import opened Modem

  /** The complete parameter record `init` reads. Frequencies and bandwidths
      are whole hertz. */
  datatype Params = Params(
    frequency: int,
    txPowerLevel: int,
    signalBandwidth: int,
    spreadingFactor: int,
    codingRate: int,
    preambleLength: int,
    implicitHeader: bool,
    syncWord: Byte,
    enableCrc: bool)

  /** The constructor's defaults, completed with the carrier frequency. */
  function DefaultParams(frequency: int): Params
  {
    Params(frequency, 2, 125000, 8, 5, 8, false, 0x12, false)
  }

  /** Every register `init` programs, for the constructor's defaults: PA_BOOST
      at 2 dBm (0x80), 125 kHz (bin 7), coding rate 4/5, explicit header,
      spreading factor 8 with its detection pair, no CRC, automatic gain
      control without low-data-rate optimisation (0x04), preamble 8 and sync
      word 0x12. */
  lemma DefaultConfiguration(c: Chip, frequency: int)
    requires Configured(c, DefaultParams(frequency))
    ensures TunedTo(c, frequency)
    ensures c.regs[REG_PA_CONFIG] == 0x80
    ensures c.regs[REG_MODEM_CONFIG_1] >> 4 == 7
    ensures (c.regs[REG_MODEM_CONFIG_1] & 0x0e) >> 1 == 1
    ensures c.regs[REG_MODEM_CONFIG_1] & 0x01 == 0
    ensures c.regs[REG_MODEM_CONFIG_2] >> 4 == 8
    ensures c.regs[REG_MODEM_CONFIG_2] & 0x04 == 0
    ensures c.regs[REG_DETECTION_OPTIMIZE] == 0xc3 && c.regs[REG_DETECTION_THRESHOLD] == 0x0a
    ensures c.regs[REG_MODEM_CONFIG_3] == 0x04
    ensures c.regs[REG_PREAMBLE_MSB] == 0 && c.regs[REG_PREAMBLE_LSB] == 8
    ensures c.regs[REG_SYNC_WORD] == 0x12
    ensures c.regs[REG_OP_MODE] == 0x81
  {
    var p := DefaultParams(frequency);
    assert Modulated(c, p);
    PaBoostExamples();
    BandwidthIndexOfBin(7);
    LowDataRateExamples();
    PreambleBytes(c.regs[REG_PREAMBLE_MSB], c.regs[REG_PREAMBLE_LSB], p.preambleLength);
  }

  /** A preamble length below 256 leaves the high byte zero. */
  lemma PreambleBytes(msb: Byte, lsb: Byte, n: int)
    requires 0 <= n < 256 && msb as int * 256 + lsb as int == Word16(n)
    ensures msb == 0 && lsb as int == n
  {
    assert n % 65536 == n;
  }

  function Pow2(n: nat): (r: nat)
    ensures r >= 1
  {
    if n == 0 then 1 else 2 * Pow2(n - 1)
  }

  /** `1000 / (bw / 2**sf) > 16` on the raw parameters, over the rationals:
      the symbol time 2^sf / bw seconds exceeds 16 ms. A negative bandwidth
      makes the quotient negative, so the test fails. Where the float
      expression does not raise (`DataRateFault`), it agrees with this test
      except for rounding within one unit in the last place of 16. */
  function LowDataRateTest(bw: int, sf: int): bool
    requires bw != 0
  {
    if bw < 0 then false
    else if sf >= 0 then 1000 * Pow2(sf) > 16 * bw
    else 1000 > 16 * bw * Pow2(-sf)
  }

  /** `2**e` as a real number, for any integer exponent. */
  function Pow2Real(e: int): (x: real)
    ensures x > 0.0
  {
    if e >= 0 then Pow2(e) as real else 1.0 / Pow2(-e) as real
  }

  /** Line 131's expression `1000 / (bw / 2**sf) > 16`, read over the real
      numbers exactly as written: two divisions and a comparison. */
  predicate SymbolTimeExceeds16ms(bw: int, sf: int)
    requires bw != 0
  {
    1000.0 / (bw as real / Pow2Real(sf)) > 16.0
  }

  lemma DivAbove(x: real, y: real, k: real)
    requires y > 0.0
    ensures x / y > k <==> x > k * y
  {
    assert x == (x / y) * y;
  }

  lemma DivOfNegative(x: real, y: real)
    requires x > 0.0 && y < 0.0
    ensures x / y < 0.0
  {
    assert x == (x / y) * y;
  }

  lemma DivOfQuotient(x: real, y: real, z: real)
    requires y != 0.0 && z > 0.0
    ensures x / (y / z) == x * z / y
  {
    assert (y / z) * z == y;
  }

  /** The integer test decides line 131's expression over the reals for every
      non-zero bandwidth and every spreading factor; a negative bandwidth
      never asks for the optimisation. */
  lemma LowDataRateTestExact(bw: int, sf: int)
    requires bw != 0
    ensures LowDataRateTest(bw, sf) <==> SymbolTimeExceeds16ms(bw, sf)
    ensures bw < 0 ==> !LowDataRateTest(bw, sf)
  {
    var b := bw as real;
    var z := Pow2Real(sf);
    DivOfQuotient(1000.0, b, z);
    var n := 1000.0 * z;
    if bw > 0 {
      DivAbove(n, b, 16.0);
      if sf >= 0 {
        assert z == Pow2(sf) as real;
      } else {
        var q := Pow2(-sf) as real;
        assert z == 1.0 / q;
        DivAbove(1000.0, q, 16.0 * b);
      }
    } else {
      DivOfNegative(n, b);
    }
  }

  /** Whether the data-rate expression raises for a float bandwidth `bw` (the
      driver's default 125E3 is a float). `2**sf` is an integer too large for
      a double from spreading factor 1024 on (OverflowError when `bw` divides
      by it); from -1075 down it is a double that underflows to 0.0, and so is
      `bw / 2**sf` when `bw` is 0 (ZeroDivisionError in either division). */
  predicate DataRateRaises(bw: int, sf: int)
  {
    bw == 0 || sf >= 1024 || sf <= -1075
  }

  /** Where the data-rate expression does not raise, the bandwidth is not
      zero, `2**sf` is within a double's range, and `LowDataRateTest` is the
      expression's value over the reals. */
  lemma DataRateDefined(bw: int, sf: int)
    requires !DataRateRaises(bw, sf)
    ensures bw != 0 && -1074 <= sf <= 1023
    ensures LowDataRateTest(bw, sf) <==> SymbolTimeExceeds16ms(bw, sf)
  {
    LowDataRateTestExact(bw, sf);
  }

  /** The exception `DataRateRaises` predicts: the conversion of `2**sf` to a
      double comes first, so a huge exponent overflows even for bandwidth 0. */
  function DataRateFault(sf: int): (f: Fault)
    ensures f == FloatOverflow || f == ZeroDivision
    ensures f == FloatOverflow <==> sf >= 1024
  {
    if sf >= 1024 then FloatOverflow else ZeroDivision
  }

  /** The test on the driver's defaults: 125 kHz at spreading factor 8 gives
      2.048 ms symbols (no optimisation); spreading factor 12 gives 32.768 ms. */
  lemma LowDataRateExamples()
    ensures !LowDataRateTest(125000, 8)
    ensures LowDataRateTest(125000, 12)
    ensures LowDataRateTest(125000, 11) && !LowDataRateTest(125000, 10)
    ensures !LowDataRateTest(250000, 11) && LowDataRateTest(62500, 10)
  {
    assert Pow2(8) == 256;
    assert Pow2(10) == 1024;
    assert Pow2(11) == 2048;
    assert Pow2(12) == 4096;
  }

  /** The modulation registers hold `p`: bandwidth bin, coding rate, header
      mode, spreading factor with its detection pair, CRC, output power,
      preamble length, sync word and the LNA boost. */
  ghost predicate Modulated(c: Chip, p: Params)
  {
    && (c.regs[REG_MODEM_CONFIG_1] >> 4) as int == BandwidthIndex(p.signalBandwidth)
    && ((c.regs[REG_MODEM_CONFIG_1] & 0x0e) >> 1) as int + 4 == Clamp(p.codingRate, 5, 8)
    && HeaderBit(c) == p.implicitHeader
    && (c.regs[REG_MODEM_CONFIG_2] >> 4) as int == Clamp(p.spreadingFactor, 6, 12)
    && (c.regs[REG_MODEM_CONFIG_2] & 0x04 == 0x04) == p.enableCrc
    && (c.regs[REG_DETECTION_OPTIMIZE], c.regs[REG_DETECTION_THRESHOLD])
       == DetectionPair(Clamp(p.spreadingFactor, 6, 12))
    && c.regs[REG_PA_CONFIG] == PaConfig(p.txPowerLevel, PA_OUTPUT_PA_BOOST_PIN)
    && OutputPowerDbm(c.regs[REG_PA_CONFIG]) == Clamp(p.txPowerLevel, 2, 17)
    && c.regs[REG_PREAMBLE_MSB] as int * 256 + c.regs[REG_PREAMBLE_LSB] as int == Word16(p.preambleLength)
    && c.regs[REG_SYNC_WORD] == p.syncWord
    && c.regs[REG_LNA] & 0x03 == 0x03
  }

  /** `Modulated`, one register field at a time. */
  lemma ModulatedIntro(c: Chip, p: Params)
    requires (c.regs[REG_MODEM_CONFIG_1] >> 4) as int == BandwidthIndex(p.signalBandwidth)
    requires ((c.regs[REG_MODEM_CONFIG_1] & 0x0e) >> 1) as int + 4 == Clamp(p.codingRate, 5, 8)
    requires HeaderBit(c) == p.implicitHeader
    requires (c.regs[REG_MODEM_CONFIG_2] >> 4) as int == Clamp(p.spreadingFactor, 6, 12)
    requires (c.regs[REG_MODEM_CONFIG_2] & 0x04 == 0x04) == p.enableCrc
    requires (c.regs[REG_DETECTION_OPTIMIZE], c.regs[REG_DETECTION_THRESHOLD]) == DetectionPair(Clamp(p.spreadingFactor, 6, 12))
    requires c.regs[REG_PA_CONFIG] == PaConfig(p.txPowerLevel, PA_OUTPUT_PA_BOOST_PIN)
    requires OutputPowerDbm(c.regs[REG_PA_CONFIG]) == Clamp(p.txPowerLevel, 2, 17)
    requires c.regs[REG_PREAMBLE_MSB] as int * 256 + c.regs[REG_PREAMBLE_LSB] as int == Word16(p.preambleLength)
    requires c.regs[REG_SYNC_WORD] == p.syncWord
    requires c.regs[REG_LNA] & 0x03 == 0x03
    ensures Modulated(c, p)
  {
  }

  /** What `init` leaves in the chip's registers: the carrier, the modulation,
      the low-data-rate bit decided by the symbol-time test, both FIFO bases
      at 0 and LoRa standby. */
  ghost predicate Configured(c: Chip, p: Params)
    requires p.signalBandwidth != 0
  {
    && TunedTo(c, p.frequency)
    && Modulated(c, p)
    && c.regs[REG_MODEM_CONFIG_3]
       == (if LowDataRateTest(p.signalBandwidth, p.spreadingFactor) then 0x0c else 0x04)
    && c.regs[REG_FIFO_TX_BASE_ADDR] == 0 && c.regs[REG_FIFO_RX_BASE_ADDR] == 0
    && c.regs[REG_OP_MODE] == 0x81
  }

  /** `Configured`, one part at a time. */
  lemma ConfiguredIntro(c: Chip, p: Params)
    requires p.signalBandwidth != 0
    requires TunedTo(c, p.frequency)
    requires Modulated(c, p)
    requires c.regs[REG_MODEM_CONFIG_3]
      == (if LowDataRateTest(p.signalBandwidth, p.spreadingFactor) then 0x0c else 0x04)
    requires c.regs[REG_FIFO_TX_BASE_ADDR] == 0 && c.regs[REG_FIFO_RX_BASE_ADDR] == 0
    requires c.regs[REG_OP_MODE] == 0x81
    ensures Configured(c, p)
  {
  }

  /** Completing the set-up keeps the modulation: it writes none of those
      registers. */
  lemma ModulatedKept(c: Chip, c': Chip, p: Params)
    requires Modulated(c, p) && SameExcept(c, c', CompletionRegisters)
    ensures Modulated(c', p)
  {
    assert c'.regs[REG_MODEM_CONFIG_1] == c.regs[REG_MODEM_CONFIG_1];
    assert c'.regs[REG_MODEM_CONFIG_2] == c.regs[REG_MODEM_CONFIG_2];
    assert c'.regs[REG_DETECTION_OPTIMIZE] == c.regs[REG_DETECTION_OPTIMIZE];
    assert c'.regs[REG_DETECTION_THRESHOLD] == c.regs[REG_DETECTION_THRESHOLD];
    assert c'.regs[REG_PA_CONFIG] == c.regs[REG_PA_CONFIG];
    assert c'.regs[REG_PREAMBLE_MSB] == c.regs[REG_PREAMBLE_MSB];
    assert c'.regs[REG_PREAMBLE_LSB] == c.regs[REG_PREAMBLE_LSB];
    assert c'.regs[REG_SYNC_WORD] == c.regs[REG_SYNC_WORD];
    assert c'.regs[REG_LNA] == c.regs[REG_LNA];
    ModulatedIntro(c', p);
  }

  /** Writes outside the three frequency registers keep the carrier word. */
  /** One register outside the changed set, read off `SameExcept`. */
  lemma RegisterKept(c: Chip, c': Chip, s: set<Addr>, a: Addr)
    requires SameExcept(c, c', s) && a !in s
    ensures c'.regs[a] == c.regs[a]
  {
  }

  lemma FrfKept(c: Chip, c': Chip, s: set<Addr>)
    requires SameExcept(c, c', s)
    requires REG_FRF_MSB !in s && REG_FRF_MID !in s && REG_FRF_LSB !in s
    ensures Frf(c') == Frf(c)
  {
    assert c'.regs[REG_FRF_MSB] == c.regs[REG_FRF_MSB];
    assert c'.regs[REG_FRF_MID] == c.regs[REG_FRF_MID];
    assert c'.regs[REG_FRF_LSB] == c.regs[REG_FRF_LSB];
  }

  /** Lines 112-120: bandwidth, LNA boost, automatic gain control, tx power. */
  method ConfigureRf(r: Radio, p: Params) returns (io: Io<()>)
    ensures (io.radio.chip.regs[REG_MODEM_CONFIG_1] >> 4) as int == BandwidthIndex(p.signalBandwidth)
    ensures io.radio.chip.regs[REG_LNA] == r.chip.regs[REG_LNA] | 0x03
    ensures io.radio.chip.regs[REG_LNA] & 0x03 == 0x03
    ensures io.radio.chip.regs[REG_MODEM_CONFIG_3] == 0x04
    ensures io.radio.chip.regs[REG_PA_CONFIG] == PaConfig(p.txPowerLevel, PA_OUTPUT_PA_BOOST_PIN)
    ensures OutputPowerDbm(io.radio.chip.regs[REG_PA_CONFIG]) == Clamp(p.txPowerLevel, 2, 17)
    ensures SameExcept(r.chip, io.radio.chip,
      {REG_MODEM_CONFIG_1, REG_LNA, REG_MODEM_CONFIG_3, REG_PA_CONFIG})
    ensures io.radio == r.(chip := io.radio.chip)
  {
    var b := SetSignalBandwidth(r, p.signalBandwidth);
    var ln := ReadRegister(b.radio, REG_LNA);
    var lw := WriteRegister(ln.radio, REG_LNA, ln.value | 0x03);
    var m3 := WriteRegister(lw.radio, REG_MODEM_CONFIG_3, 0x04);
    var tx := SetTxPower(m3.radio, p.txPowerLevel, PA_OUTPUT_PA_BOOST_PIN);
    io := Io(tx.radio, b.trace + ln.trace + lw.trace + m3.trace + tx.trace, ());
  }

  /** Lines 121-124: header mode (after forgetting the cache), spreading factor
      and coding rate. */
  method ConfigureShape(r: Radio, p: Params) returns (io: Io<()>)
    ensures io.radio.header == Cached(p.implicitHeader)
    ensures HeaderBit(io.radio.chip) == p.implicitHeader
    ensures ((io.radio.chip.regs[REG_MODEM_CONFIG_1] & 0x0e) >> 1) as int + 4 == Clamp(p.codingRate, 5, 8)
    ensures io.radio.chip.regs[REG_MODEM_CONFIG_1] >> 4 == r.chip.regs[REG_MODEM_CONFIG_1] >> 4
    ensures (io.radio.chip.regs[REG_MODEM_CONFIG_2] >> 4) as int == Clamp(p.spreadingFactor, 6, 12)
    ensures (io.radio.chip.regs[REG_DETECTION_OPTIMIZE], io.radio.chip.regs[REG_DETECTION_THRESHOLD])
         == DetectionPair(Clamp(p.spreadingFactor, 6, 12))
    ensures SameExcept(r.chip, io.radio.chip,
      {REG_MODEM_CONFIG_1, REG_MODEM_CONFIG_2, REG_DETECTION_OPTIMIZE, REG_DETECTION_THRESHOLD})
    ensures io.radio.frequency == r.frequency && io.radio.onReceive == r.onReceive
  {
    var h := ImplicitHeaderMode(r.(header := Unknown), p.implicitHeader);
    var sf := SetSpreadingFactor(h.radio, p.spreadingFactor);
    var cr := SetCodingRate(sf.radio, p.codingRate);
    io := Io(cr.radio, h.trace + sf.trace + cr.trace, ());
  }

  /** Lines 125-127: preamble length, sync word and CRC. */
  method ConfigureFraming(r: Radio, p: Params) returns (io: Io<()>)
    ensures (io.radio.chip.regs[REG_MODEM_CONFIG_2] & 0x04 == 0x04) == p.enableCrc
    ensures io.radio.chip.regs[REG_MODEM_CONFIG_2] >> 4 == r.chip.regs[REG_MODEM_CONFIG_2] >> 4
    ensures io.radio.chip.regs[REG_PREAMBLE_MSB] as int * 256 + io.radio.chip.regs[REG_PREAMBLE_LSB] as int
         == Word16(p.preambleLength)
    ensures io.radio.chip.regs[REG_SYNC_WORD] == p.syncWord
    ensures SameExcept(r.chip, io.radio.chip,
      {REG_MODEM_CONFIG_2, REG_PREAMBLE_MSB, REG_PREAMBLE_LSB, REG_SYNC_WORD})
    ensures io.radio == r.(chip := io.radio.chip)
  {
    var pl := SetPreambleLength(r, p.preambleLength);
    var sw := SetSyncWord(pl.radio, p.syncWord);
    var crc := EnableCrc(sw.radio, p.enableCrc);
    io := Io(crc.radio, pl.trace + sw.trace + crc.trace, ());
  }

  /** Lines 112-127: every modulation parameter programmed in order. */
  method Configure(r: Radio, p: Params) returns (io: Io<()>)
    ensures Modulated(io.radio.chip, p)
    ensures io.radio.chip.regs[REG_MODEM_CONFIG_3] == 0x04
    ensures io.radio.chip.regs[REG_LNA] == r.chip.regs[REG_LNA] | 0x03
    ensures SameExcept(r.chip, io.radio.chip, ModulationRegisters)
    ensures io.radio.header == Cached(p.implicitHeader)
    ensures io.radio.frequency == r.frequency && io.radio.onReceive == r.onReceive
  {
    var rf := ConfigureRf(r, p);
    var sh := ConfigureShape(rf.radio, p);
    var fr := ConfigureFraming(sh.radio, p);
    ModulatedIntro(fr.radio.chip, p);
    io := Io(fr.radio, rf.trace + sh.trace + fr.trace, ());
  }

  /** The registers `Configure` may change. */
  const ModulationRegisters: set<Addr> :=
    {REG_MODEM_CONFIG_1, REG_LNA, REG_MODEM_CONFIG_3, REG_PA_CONFIG, REG_MODEM_CONFIG_2,
     REG_DETECTION_OPTIMIZE, REG_DETECTION_THRESHOLD, REG_PREAMBLE_MSB, REG_PREAMBLE_LSB, REG_SYNC_WORD}

  /** The registers `Complete` may change. */
  const CompletionRegisters: set<Addr> :=
    {REG_MODEM_CONFIG_3, REG_FIFO_TX_BASE_ADDR, REG_FIFO_RX_BASE_ADDR, REG_OP_MODE}

  /** Lines 131-132: set bit 3 of REG_MODEM_CONFIG_3 when the test holds. */
  method LowDataRateOptimize(r: Radio, on: bool) returns (io: Io<()>)
    ensures on ==> io.radio.chip.regs[REG_MODEM_CONFIG_3] == r.chip.regs[REG_MODEM_CONFIG_3] | 0x08
    ensures !on ==> io.radio == r && io.trace == []
    ensures SameExcept(r.chip, io.radio.chip, {REG_MODEM_CONFIG_3})
    ensures io.radio == r.(chip := io.radio.chip)
  {
    if on {
      var rd := ReadRegister(r, REG_MODEM_CONFIG_3);
      var wr := WriteRegister(rd.radio, REG_MODEM_CONFIG_3, rd.value | 0x08);
      io := Io(wr.radio, rd.trace + wr.trace, ());
    } else {
      io := Io(r, [], ());
    }
  }

  /** Lines 134-138: both FIFO base addresses to 0, then standby. */
  method Finish(r: Radio) returns (io: Io<()>)
    ensures io.radio.chip.regs[REG_FIFO_TX_BASE_ADDR] == 0
    ensures io.radio.chip.regs[REG_FIFO_RX_BASE_ADDR] == 0
    ensures io.radio.chip.regs[REG_OP_MODE] == 0x81
    ensures |io.trace| == 3 && io.trace[2] == Write(REG_OP_MODE, 0x81)
    ensures SameExcept(r.chip, io.radio.chip, {REG_FIFO_TX_BASE_ADDR, REG_FIFO_RX_BASE_ADDR, REG_OP_MODE})
    ensures io.radio == r.(chip := io.radio.chip)
  {
    var t := WriteRegister(r, REG_FIFO_TX_BASE_ADDR, FIFO_TX_BASE_ADDR);
    var x := WriteRegister(t.radio, REG_FIFO_RX_BASE_ADDR, FIFO_RX_BASE_ADDR);
    var s := Standby(x.radio);
    io := Io(s.radio, t.trace + x.trace + s.trace, ());
  }

  /** Lines 129-138 once the data-rate test has a non-zero bandwidth: the
      optimisation bit, the FIFO base addresses, standby. */
  method Complete(r: Radio, p: Params) returns (io: Io<()>)
    requires p.signalBandwidth != 0
    ensures io.radio.chip.regs[REG_MODEM_CONFIG_3]
         == if LowDataRateTest(p.signalBandwidth, p.spreadingFactor)
            then r.chip.regs[REG_MODEM_CONFIG_3] | 0x08 else r.chip.regs[REG_MODEM_CONFIG_3]
    ensures io.radio.chip.regs[REG_FIFO_TX_BASE_ADDR] == 0 && io.radio.chip.regs[REG_FIFO_RX_BASE_ADDR] == 0
    ensures io.radio.chip.regs[REG_OP_MODE] == 0x81
    ensures |io.trace| >= 1 && io.trace[|io.trace| - 1] == Write(REG_OP_MODE, 0x81)
    ensures SameExcept(r.chip, io.radio.chip, CompletionRegisters)
    ensures io.radio == r.(chip := io.radio.chip)
  {
    var l := LowDataRateOptimize(r, LowDataRateTest(p.signalBandwidth, p.spreadingFactor));
    var e := Finish(l.radio);
    LastOfAppend(l.trace, e.trace);
    io := Io(e.radio, l.trace + e.trace, ());
  }

  /** Lines 109-110: sleep, then the carrier. */
  method Tune(r: Radio, hz: int) returns (o: Outcome<()>)
    ensures o.Raised? <==> hz !in FrfTable
    ensures o.Raised? ==> o.fault == UnknownFrequency && o.trace == [Write(REG_OP_MODE, 0x80)]
    ensures o.Done? ==> TunedTo(o.radio.chip, hz) && |o.trace| == 4
    ensures SameExcept(r.chip, o.radio.chip, {REG_OP_MODE, REG_FRF_MSB, REG_FRF_MID, REG_FRF_LSB})
    ensures o.radio.frequency == hz && o.radio.onReceive == r.onReceive
  {
    var s := Sleep(r);
    var f := SetFrequency(s.radio, hz);
    if f.Raised? {
      return Raised(f.radio, s.trace + f.trace, UnknownFrequency);
    }
    o := Done(f.radio, s.trace + f.trace, ());
  }

  /** Lines 112-138: every modulation parameter and then, unless the data-rate
      expression raises, the completion. The carrier registers are not
      touched. */
  method ProgramModem(r: Radio, p: Params) returns (o: Outcome<()>)
    ensures o.Raised? <==> DataRateRaises(p.signalBandwidth, p.spreadingFactor)
    ensures o.Raised? ==> o.fault == DataRateFault(p.spreadingFactor)
    ensures Modulated(o.radio.chip, p)
    ensures o.Done? ==>
      o.radio.chip.regs[REG_MODEM_CONFIG_3]
      == if LowDataRateTest(p.signalBandwidth, p.spreadingFactor) then 0x0c else 0x04
    ensures o.Done? ==> o.radio.chip.regs[REG_FIFO_TX_BASE_ADDR] == 0 && o.radio.chip.regs[REG_FIFO_RX_BASE_ADDR] == 0
    ensures o.Done? ==> o.radio.chip.regs[REG_OP_MODE] == 0x81
    ensures o.Done? ==> o.radio.chip.regs[REG_LNA] == r.chip.regs[REG_LNA] | 0x03
    ensures o.Done? ==> |o.trace| >= 1 && o.trace[|o.trace| - 1] == Write(REG_OP_MODE, 0x81)
    ensures o.radio.header == Cached(p.implicitHeader)
    ensures SameExcept(r.chip, o.radio.chip, ModulationRegisters + CompletionRegisters)
    ensures Frf(o.radio.chip) == Frf(r.chip)
    ensures o.radio.frequency == r.frequency && o.radio.onReceive == r.onReceive
  {
    var c := Configure(r, p);
    FrfKept(r.chip, c.radio.chip, ModulationRegisters);
    if DataRateRaises(p.signalBandwidth, p.spreadingFactor) {
      return Raised(c.radio, c.trace, DataRateFault(p.spreadingFactor));
    }
    var e := Complete(c.radio, p);
    ModulatedKept(c.radio.chip, e.radio.chip, p);
    FrfKept(c.radio.chip, e.radio.chip, CompletionRegisters);
    RegisterKept(c.radio.chip, e.radio.chip, CompletionRegisters, REG_LNA);
    LastOfAppend(c.trace, e.trace);
    o := Done(e.radio, c.trace + e.trace, ());
  }

  /** Lines 109-138 once the version is right: tune, configure, and, unless
      the data-rate expression raises, complete. */
  method Program(r: Radio, p: Params) returns (o: Outcome<()>)
    ensures o.Raised? ==> o.fault in {UnknownFrequency, ZeroDivision, FloatOverflow}
    ensures (o.Raised? && o.fault == UnknownFrequency) <==> p.frequency !in FrfTable
    ensures (o.Raised? && o.fault == UnknownFrequency) ==> o.trace == [Write(REG_OP_MODE, 0x80)]
    ensures (o.Raised? && o.fault == FloatOverflow) <==>
      p.frequency in FrfTable && p.spreadingFactor >= 1024
    ensures (o.Raised? && o.fault == ZeroDivision) <==>
      p.frequency in FrfTable && p.spreadingFactor < 1024
      && (p.signalBandwidth == 0 || p.spreadingFactor <= -1075)
    ensures o.Done? <==> p.frequency in FrfTable && !DataRateRaises(p.signalBandwidth, p.spreadingFactor)
    ensures o.Done? ==> Configured(o.radio.chip, p)
    ensures o.Done? ==> o.radio.chip.regs[REG_LNA] == r.chip.regs[REG_LNA] | 0x03
    ensures o.Done? ==> o.radio.header == Cached(p.implicitHeader)
    ensures o.Done? ==> o.radio.frequency == p.frequency && o.radio.chip.fifo == r.chip.fifo
    ensures o.Done? ==> |o.trace| >= 1 && o.trace[|o.trace| - 1] == Write(REG_OP_MODE, 0x81)
  {
    var t := Tune(r, p.frequency);
    if t.Raised? {
      return t;
    }
    RegisterKept(r.chip, t.radio.chip, {REG_OP_MODE, REG_FRF_MSB, REG_FRF_MID, REG_FRF_LSB}, REG_LNA);
    var g := ProgramModem(t.radio, p);
    if g.Raised? {
      return Raised(g.radio, t.trace + g.trace, g.fault);
    }
    ConfiguredIntro(g.radio.chip, p);
    LastOfAppend(t.trace, g.trace);
    o := Done(g.radio, t.trace + g.trace, ());
  }

  lemma LastOfAppend<T>(a: seq<T>, b: seq<T>)
    requires |b| >= 1
    ensures |a + b| >= 1 && (a + b)[|a + b| - 1] == b[|b| - 1]
  {
  }

  /** `init`. A version other than 0x12 raises after the one read; an unlisted
      frequency raises after the sleep write; a zero bandwidth or an
      out-of-range spreading factor raises at the data-rate test; otherwise
      every parameter is programmed and the chip is in standby with the header
      cache in step with the hardware. */
  method Init(r: Radio, p: Params) returns (o: Outcome<()>)
    ensures |o.trace| >= 1 && o.trace[0] == Read(REG_VERSION)
    ensures (o.Raised? && o.fault == InvalidVersion) <==> r.chip.regs[REG_VERSION] != CHIP_VERSION
    ensures r.chip.regs[REG_VERSION] != CHIP_VERSION ==> NoWrites(o.trace) && o.radio == r
    ensures (o.Raised? && o.fault == UnknownFrequency)
        <==> r.chip.regs[REG_VERSION] == CHIP_VERSION && p.frequency !in FrfTable
    ensures (o.Raised? && o.fault == UnknownFrequency) ==>
      o.trace == [Read(REG_VERSION), Write(REG_OP_MODE, 0x80)]
    ensures (o.Raised? && (o.fault == ZeroDivision || o.fault == FloatOverflow)) <==>
      && r.chip.regs[REG_VERSION] == CHIP_VERSION && p.frequency in FrfTable
      && DataRateRaises(p.signalBandwidth, p.spreadingFactor)
    ensures o.Raised? && o.fault == FloatOverflow ==> p.spreadingFactor >= 1024
    ensures o.Done? <==>
      && r.chip.regs[REG_VERSION] == CHIP_VERSION && p.frequency in FrfTable
      && !DataRateRaises(p.signalBandwidth, p.spreadingFactor)
    ensures o.Raised? ==> o.fault != InvalidVersion || o.trace == [Read(REG_VERSION)]
    ensures o.Done? ==> Configured(o.radio.chip, p)
    ensures o.Done? ==> o.radio.chip.regs[REG_LNA] == r.chip.regs[REG_LNA] | 0x03
    ensures o.Done? ==> o.radio.header == Cached(p.implicitHeader) && HeaderInSync(o.radio)
    ensures o.Done? ==> o.radio.frequency == p.frequency && o.radio.chip.fifo == r.chip.fifo
    ensures o.Done? ==> o.trace[|o.trace| - 1] == Write(REG_OP_MODE, 0x81)
  {
    var v := ReadRegister(r, REG_VERSION);
    if v.value != CHIP_VERSION {
      return Raised(v.radio, v.trace, InvalidVersion);
    }
    var g := Program(v.radio, p);
    if g.Raised? {
      return Raised(g.radio, v.trace + g.trace, g.fault);
    }
    LastOfAppend(v.trace, g.trace);
    o := Done(g.radio, v.trace + g.trace, ());
  }
}

=== FILE: transmit.dfy ===
/** Sending a packet: `beginPacket` empties the transmit queue, `write` appends
    bytes to the FIFO up to the 255-byte packet limit, `endPacket` starts the
    transmission and polls REG_IRQ_FLAGS until TX_DONE. The transmit base
    address is 0, so the queue is the FIFO prefix of REG_PAYLOAD_LENGTH bytes. */
module Transmit {
  import opened Registers
  import opened Device
  import opened Driver
  import opened Ring

  function Min(a: int, b: int): (m: int)
    ensures m <= a && m <= b && (m == a || m == b)
  {
    if a <= b then a else b
  }

  /** The bytes queued for transmission. */
  function Queue(c: Chip): (q: seq<Byte>)
    ensures |q| == c.regs[REG_PAYLOAD_LENGTH] as int
  {
    c.fifo[..c.regs[REG_PAYLOAD_LENGTH] as int]
  }

  /** The FIFO pointer sits just after the queue, where the next byte goes. */
  predicate Filling(c: Chip)
  {
    c.Pointer() as int == c.regs[REG_PAYLOAD_LENGTH] as int
  }

  /** The bus traffic that pushes `data` into the FIFO, one write per byte. */
  function FifoWrites(data: seq<Byte>): (t: seq<Transfer>)
    ensures |t| == |data|
  {
    if data == [] then [] else [Write(REG_FIFO, data[0])] + FifoWrites(data[1..])
  }

  /** Write `i` of the run carries byte `i` of the data. */
  lemma {:induction false} FifoWritesInOrder(data: seq<Byte>)
    ensures forall i :: 0 <= i < |data| ==> FifoWrites(data)[i] == Write(REG_FIFO, data[i])
  {
    if data != [] {
      FifoWritesInOrder(data[1..]);
    }
  }

  /** `beginPacket`: standby, the requested header mode, then the FIFO pointer
      and the payload length both to 0, which leaves an empty queue. */
  method BeginPacket(r: Radio, implicit: bool) returns (io: Io<()>)
    ensures Filling(io.radio.chip) && Queue(io.radio.chip) == []
    ensures io.radio.chip.regs[REG_OP_MODE] == MODE_LONG_RANGE_MODE | MODE_STDBY
    ensures io.radio.header == Cached(implicit)
    ensures r.header != Cached(implicit) ==> HeaderBit(io.radio.chip) == implicit
    ensures HeaderInSync(r) ==> HeaderInSync(io.radio)
    ensures |io.trace| >= 3 && io.trace[0] == Write(REG_OP_MODE, MODE_LONG_RANGE_MODE | MODE_STDBY)
    ensures io.trace[|io.trace| - 2..] == [Write(REG_FIFO_ADDR_PTR, FIFO_TX_BASE_ADDR), Write(REG_PAYLOAD_LENGTH, 0)]
    ensures SameExcept(r.chip, io.radio.chip,
      {REG_OP_MODE, REG_MODEM_CONFIG_1, REG_FIFO_ADDR_PTR, REG_PAYLOAD_LENGTH})
    ensures io.radio.frequency == r.frequency && io.radio.onReceive == r.onReceive
  {
    var s := Standby(r);
    var h := ImplicitHeaderMode(s.radio, implicit);
    var p := WriteRegister(h.radio, REG_FIFO_ADDR_PTR, FIFO_TX_BASE_ADDR);
    var l := WriteRegister(p.radio, REG_PAYLOAD_LENGTH, 0);
    io := Io(l.radio, s.trace + h.trace + p.trace + l.trace, ());
  }

  /** One REG_FIFO write: the byte lands under the pointer, which advances. */
  method PushByte(r: Radio, b: Byte) returns (io: Io<()>)
    ensures io.radio.chip.fifo == r.chip.fifo[r.chip.Pointer() as int := b]
    ensures io.radio.chip.Pointer() == r.chip.Pointer() + 1
    ensures io.radio.chip.regs == r.chip.regs[REG_FIFO_ADDR_PTR := io.radio.chip.Pointer()]
    ensures io.trace == [Write(REG_FIFO, b)]
    ensures io.radio == r.(chip := io.radio.chip)
  {
    io := WriteRegister(r, REG_FIFO, b);
  }

  /** The loop of `write`: every byte of `data` through REG_FIFO, in order,
      the first byte first. The bytes land in the FIFO from the pointer on,
      the pointer moves past them, and nothing else changes. */
  method PushFifo(r: Radio, data: seq<Byte>) returns (io: Io<()>)
    ensures io.trace == FifoWrites(data)
    ensures io.radio == r.(chip := Chip(r.chip.regs[REG_FIFO_ADDR_PTR := Advance(r.chip.Pointer(), |data|)],
                                        Deposit(r.chip.fifo, r.chip.Pointer(), data)))
    decreases |data|
  {
    if data == [] {
      io := Io(r, [], ());
    } else {
      var first := PushByte(r, data[0]);
      var rest := PushFifo(first.radio, data[1..]);
      io := Io(rest.radio, first.trace + rest.trace, ());
    }
  }

  /** Free space in a packet of `length` bytes: the 255-byte limit less the
      transmit base address and the length. */
  function Room(length: Byte): (n: int)
    ensures 0 <= n
  {
    MAX_PKT_LENGTH - FIFO_TX_BASE_ADDR as int - length as int
  }

  /** `write`: as many bytes of `buffer` as still fit under the 255-byte limit
      go into the FIFO in order, from the pointer on, and the payload length
      grows by that count, which is returned. */
  method WriteBuffer(r: Radio, buffer: seq<Byte>) returns (io: Io<nat>)
    ensures io.value == Min(|buffer|, Room(r.chip.regs[REG_PAYLOAD_LENGTH]))
    ensures io.radio.chip.regs[REG_PAYLOAD_LENGTH] as int == r.chip.regs[REG_PAYLOAD_LENGTH] as int + io.value
    ensures io.radio.chip.Pointer() == Advance(r.chip.Pointer(), io.value)
    ensures io.radio.chip.fifo == Deposit(r.chip.fifo, r.chip.Pointer(), buffer[..io.value])
    ensures io.trace == [Read(REG_PAYLOAD_LENGTH)] + FifoWrites(buffer[..io.value])
                        + [Write(REG_PAYLOAD_LENGTH, io.radio.chip.regs[REG_PAYLOAD_LENGTH])]
    ensures io.radio.chip.regs == r.chip.regs[REG_FIFO_ADDR_PTR := io.radio.chip.Pointer()]
                                             [REG_PAYLOAD_LENGTH := io.radio.chip.regs[REG_PAYLOAD_LENGTH]]
    ensures io.radio == r.(chip := io.radio.chip)
  {
    var current := ReadRegister(r, REG_PAYLOAD_LENGTH);
    var size: nat := Min(|buffer|, Room(current.value));
    var pushed := PushFifo(current.radio, buffer[..size]);
    var length := WriteRegister(pushed.radio, REG_PAYLOAD_LENGTH, ByteOf(current.value as int + size));
    io := Io(length.radio, current.trace + pushed.trace + length.trace, size);
  }

  /** Bytes written from the end of the queue extend the queue, and the
      pointer stays just after it. */
  lemma QueueGrows(c: Chip, c': Chip, data: seq<Byte>)
    requires Filling(c)
    requires c.regs[REG_PAYLOAD_LENGTH] as int + |data| <= MAX_PKT_LENGTH
    requires c'.regs[REG_PAYLOAD_LENGTH] as int == c.regs[REG_PAYLOAD_LENGTH] as int + |data|
    requires c'.Pointer() == Advance(c.Pointer(), |data|)
    requires c'.fifo == Deposit(c.fifo, c.Pointer(), data)
    ensures Filling(c')
    ensures Queue(c') == Queue(c) + data
  {
    var n := c.regs[REG_PAYLOAD_LENGTH] as int;
    StillFilling(c.Pointer(), c'.Pointer(), n, |data|);
    DepositAppends(c.fifo, c.Pointer(), n, data);
  }

  /** After `k` more bytes from the end of an `n`-byte queue the pointer is at
      `n + k`. */
  lemma StillFilling(p: Byte, p': Byte, n: int, k: nat)
    requires p as int == n && n + k <= MAX_PKT_LENGTH && p' == Advance(p, k)
    ensures p' as int == n + k
  {
    AdvanceWraps(p, k);
  }

  /** Bytes deposited at the end of an `n`-byte prefix extend the prefix. */
  lemma DepositAppends(fifo: Fifo, p: Byte, n: int, data: seq<Byte>)
    requires p as int == n && n + |data| <= MAX_PKT_LENGTH
    ensures Deposit(fifo, p, data)[..n + |data|] == fifo[..n] + data
  {
    forall k | 0 <= k < n + |data|
      ensures Deposit(fifo, p, data)[k] == (fifo[..n] + data)[k]
    {
      QueueSlot(fifo, p, n, data, k);
    }
  }

  /** Position `k` of the FIFO after `data` went in at the end of an
      `n`-byte queue. */
  lemma QueueSlot(fifo: Fifo, p: Byte, n: int, data: seq<Byte>, k: int)
    requires p as int == n && n + |data| <= MAX_PKT_LENGTH && 0 <= k < n + |data|
    ensures Deposit(fifo, p, data)[k] == (fifo[..n] + data)[k]
  {
    if k >= n {
      DepositAt(fifo, p, data, k - n);
    } else {
      DepositOutside(fifo, p, data, k);
    }
  }

  /** The poll loop of `endPacket`: read REG_IRQ_FLAGS until TX_DONE shows.
      The chip is given `airtime` polls' worth of transmission before it
      raises TX_DONE and drops back to standby by itself; the value is the
      number of polls. */
  method AwaitTxDone(r: Radio, airtime: nat) returns (io: Io<nat>)
    ensures 1 <= io.value <= airtime + 1
    ensures r.chip.regs[REG_IRQ_FLAGS] & IRQ_TX_DONE_MASK == 0 ==> io.value == airtime + 1
    ensures r.chip.regs[REG_IRQ_FLAGS] & IRQ_TX_DONE_MASK != 0 ==> io.value == 1
    ensures io.radio == if io.value > airtime then r.(chip := TransmitDone(r.chip)) else r
    ensures io.trace == Reads(REG_IRQ_FLAGS, io.value)
  {
    var sent := r.(chip := TransmitDone(r.chip));
    var radio := r;
    var polls := 0;
    var done := false;
    while !done
      invariant polls <= airtime + 1
      invariant radio == if polls > airtime then sent else r
      invariant done <==> polls > 0 && radio.chip.regs[REG_IRQ_FLAGS] & IRQ_TX_DONE_MASK != 0
      invariant polls > 1 ==> r.chip.regs[REG_IRQ_FLAGS] & IRQ_TX_DONE_MASK == 0
      decreases airtime + 1 - polls
    {
      if polls == airtime {
        radio := sent;
      }
      var flags := ReadRegister(radio, REG_IRQ_FLAGS);
      polls := polls + 1;
      done := flags.value & IRQ_TX_DONE_MASK != 0;
    }
    io := Io(radio, Reads(REG_IRQ_FLAGS, polls), polls);
  }

  /** `endPacket`: TX mode, wait for TX_DONE, then clear TX_DONE. Whatever
      the chip did meanwhile, the flag ends cleared and the other flags are
      as they were. */
  method EndPacket(r: Radio, airtime: nat) returns (io: Io<nat>)
    ensures 1 <= io.value <= airtime + 1
    ensures r.chip.regs[REG_IRQ_FLAGS] & IRQ_TX_DONE_MASK == 0 ==> io.value == airtime + 1
    ensures io.trace == [Write(REG_OP_MODE, MODE_LONG_RANGE_MODE | MODE_TX)] + Reads(REG_IRQ_FLAGS, io.value)
                        + [Write(REG_IRQ_FLAGS, IRQ_TX_DONE_MASK)]
    ensures io.radio.chip.regs[REG_IRQ_FLAGS] == r.chip.regs[REG_IRQ_FLAGS] & !IRQ_TX_DONE_MASK
    ensures r.chip.regs[REG_IRQ_FLAGS] & IRQ_TX_DONE_MASK == 0 ==>
      io.radio.chip.regs[REG_OP_MODE] == MODE_LONG_RANGE_MODE | MODE_STDBY
    ensures SameExcept(r.chip, io.radio.chip, {REG_OP_MODE, REG_IRQ_FLAGS})
    ensures io.radio == r.(chip := io.radio.chip)
  {
    var tx := WriteRegister(r, REG_OP_MODE, MODE_LONG_RANGE_MODE | MODE_TX);
    var wait := AwaitTxDone(tx.radio, airtime);
    var clear := WriteRegister(wait.radio, REG_IRQ_FLAGS, IRQ_TX_DONE_MASK);
    ClearTxDone(r.chip.regs[REG_IRQ_FLAGS]);
    io := Io(clear.radio, tx.trace + wait.trace + clear.trace, wait.value);
  }

  /** Clearing TX_DONE gives the same flags whether or not the chip had
      raised it. */
  lemma ClearTxDone(flags: Byte)
    ensures (flags | IRQ_TX_DONE_MASK) & !IRQ_TX_DONE_MASK == flags & !IRQ_TX_DONE_MASK
  {
  }

  /** `println`: begin, write the encoded payload, end. What goes on air is
      the payload cut to 255 bytes. */
  method Println(r: Radio, payload: seq<Byte>, implicit: bool, airtime: nat) returns (io: Io<()>)
    ensures Queue(io.radio.chip) == payload[..Min(|payload|, MAX_PKT_LENGTH)]
    ensures io.radio.header == Cached(implicit)
    ensures HeaderInSync(r) ==> HeaderInSync(io.radio)
    ensures io.radio.frequency == r.frequency && io.radio.onReceive == r.onReceive
  {
    var b := BeginPacket(r, implicit);
    var w := WriteBuffer(b.radio, payload);
    QueueGrows(b.radio.chip, w.radio.chip, payload[..w.value]);
    var e := EndPacket(w.radio, airtime);
    assert Queue(e.radio.chip) == Queue(w.radio.chip);
    io := Io(e.radio, b.trace + w.trace + e.trace, ());
  }
}
